=== FILE: README.md ===
# Label placement search and route-tree helpers, modelled in Dafny

This project models the core of a transit-map poster publisher in three parts:

- **Label placement** (`offsets.dfy`, `labels.dfy`, `candidates.dfy`, `search.dfy`). This is the
  coarse-to-fine local search that places labels next to their anchors. It covers the per-factor
  offset tables, the candidate generator and its rejection rules, and the depth-one cascade into the
  first overlapping movable label. It also covers the pairwise comparison that keeps the earlier
  arrangement on ties, the sweep and per-factor convergence loops, and the final projection that
  stamps each label's visibility. The geometry and cost helpers are not modelled. They enter as the
  function values of a `Geometry`: moving a label, normalizing it, the overflow test, the overlap
  area, the eight cost terms and the visibility predicate. The search structure is proved for every
  choice of those functions.
- **Id trimming** (`api.dfy`). These are the stop short-id and route-id formatting helpers.
- **Route-tree editing** (`routes.dfy`). This covers stop equality and merging, pruning a branch
  into a gap, truncating next to a gap, and building each route's item list. The source mutates
  nodes in place. Here each operation returns the new node. Where the source throws a `TypeError`,
  the operation returns `Failure(TypeError(node))`, where `node` is the node as the source leaves
  it when the error is thrown.

`optional.dfy` holds the `Option` and `Result` types used throughout.

Modelling choices:

- `null`, `undefined` and falsy tests are explicit. A `maxDistance` counts as set only when it is
  present and non-zero. A stop's `terminalId`, `nameFi` and `nameSe` are each `Null`,
  `Undefined` or a string (`Routes.Field`), and compare as `===` does.
- `getCost` (optimizePositions.js:34-56) is the abstract `Labels.Cost`: the sum of the eight
  cost terms of the `Geometry`, each over the placement and the scope of indexes it is given.
- The source tests `placement === previous`, which compares object identity. The model keeps an
  explicit `adopted` flag (`Search.Choice`) instead. The flag is true once some comparison has
  picked a fresh candidate over the incumbent.

The model follows the code in these places, where its behaviour is easy to misread:

- The distance cap is checked against the label's current distance, before the move
  (`Candidates.CapCheckedBeforeMove`). So one accepted move can overshoot the cap. After that, the
  label cannot move at all (`Candidates.ExceededCapFreezesLabel`).
- A `maxDistance` of 0 imposes no cap (`Candidates.ZeroCapIsNoCap`).
- The candidate generator itself does not reject fixed labels. Fixed labels stay put because the
  sweep skips them and the cascade picks only movable labels.
- An overlapping label at index 0 never triggers a cascade, because the index is checked for
  truthiness.
- Two stops that both lack a `terminalId` field compare equal, because `undefined !== null`
  (`Routes.MissingIdsCompareEqual`). Two stops with no names and no usable terminal id compare
  equal too (`Routes.NamelessStopsCompareEqual`).
- On an empty item list, `truncate` throws only after its `splice` has inserted a bare gap, so the
  node is left holding that one gap.

## Model

| member | source | states |
|---|---|---|
| `Offsets.TableShape` | src/components/labelPlacement/optimizePositions.js:27-32 | folding one row of distance deltas per angle yields 7 entries per angle; entry k pairs angle k / 7 with distance k % 7 (angle-major), both scaled by the factor |
| `Offsets.DiffsFor` | src/components/labelPlacement/optimizePositions.js:23-32 | a factor's offset table has exactly 9 x 7 = 63 entries, entry k being (angles[k / 7] * f, distances[k % 7] * f) |
| `Offsets.DiffsArray` | src/components/labelPlacement/optimizePositions.js:25-32 | one table per factor, in factor order; table i has 63 entries, entry k being (angles[k / 7] * factors[i], distances[k % 7] * factors[i]) |
| `Offsets.TablesHoldZeroMove` | src/components/labelPlacement/optimizePositions.js:23-24 | every table contains the zero move at entry 31 |
| `Candidates.OverlappingItem` | src/components/labelPlacement/optimizePositions.js:58-67 | the result is the smallest index i with i != target, not fixed, and overlap area > 0; it is None exactly when no such index exists |
| `Candidates.Move` | src/components/labelPlacement/optimizePositions.js:74-84 | a diff is accepted only if the geometry moves the label, the moved box does not overflow (unless the label may be hidden), and the current distance is within the cap; a diff the geometry accepts is rejected only for overflow or the cap |
| `Candidates.Placements` | src/components/labelPlacement/optimizePositions.js:69-89 | there are never more candidates than diffs; each equals the input at every position except `index`, and its indexes are the input's followed by `index` |
| `Candidates.PlacementsSound` | src/components/labelPlacement/optimizePositions.js:72-87 | every candidate moves label `index` by some diff that `Move` accepts |
| `Candidates.PlacementsComplete` | src/components/labelPlacement/optimizePositions.js:72-88 | every diff that `Move` accepts yields a candidate, so no valid move is dropped |
| `Candidates.PlacementsInDiffOrder` | src/components/labelPlacement/optimizePositions.js:72-88 | the candidates keep the order of the diffs: candidate k comes from an accepted diff js[k], with js strictly increasing, as `map` followed by `filter` gives |
| `Candidates.PlacementsReach` | src/components/labelPlacement/optimizePositions.js:72-88 | every candidate is reached label by label from its arrangement: label index by one accepted move, the others unchanged |
| `Candidates.ExceededCapFreezesLabel` | src/components/labelPlacement/optimizePositions.js:78-82 | once a label's current distance exceeds its cap, no candidate is produced, even one that would move it back |
| `Candidates.NoOverflowUnlessHideable` | src/components/labelPlacement/optimizePositions.js:77 | a label that may not be hidden is never moved to an overflowing box |
| `Candidates.ZeroCapIsNoCap` | src/components/labelPlacement/optimizePositions.js:79 | with maxDistance 0 (falsy), only the geometry and the overflow test decide acceptance |
| `Candidates.CapCheckedBeforeMove` | src/components/labelPlacement/optimizePositions.js:79-82 | concrete case: a label at its initial distance with cap 5 accepts a +120 move, ending 120 beyond its initial distance |
| `Search.Dedup` | src/components/labelPlacement/optimizePositions.js:92 | the de-duplicated index list has no repeats and holds exactly the input's values |
| `Search.DedupKeepsDistinct` | src/components/labelPlacement/optimizePositions.js:92 | de-duplicating a list without repeats returns it unchanged, in order |
| `Search.ScopeIsUnion` | src/components/labelPlacement/optimizePositions.js:92-94 | both arrangements are scored on the union of their touched indexes, each once, the same set in either argument order |
| `Search.Compare` | src/components/labelPlacement/optimizePositions.js:91-96 | the result is one of the two arguments; `other` wins when strictly cheaper on the shared scope, and a tie or a higher cost keeps `placement` |
| `Search.Reduce` | src/components/labelPlacement/optimizePositions.js:109-113 | the fold returns its start unchanged, or an adopted candidate from the list; if no candidate is strictly cheaper than the start, it returns the start |
| `Search.ReduceUnbeaten` | src/components/labelPlacement/optimizePositions.js:109-113 | either the start is returned and no candidate beats it, or the winner is some candidate k that no later candidate beats |
| `Search.ReduceIsFoldBest` | src/components/labelPlacement/optimizePositions.js:109-113 | the fold over `comparePlacements` is the generic first-strict-improvement fold instantiated with `Improves` |
| `Search.FoldFirstMinimum` | src/components/labelPlacement/optimizePositions.js:109-113 | when the comparison ranks the start and the candidates by a weight w, the fold ends on a w-minimum: no heavier than the start or any candidate; if it moved, it is strictly lighter than the start and is the earliest candidate of that weight |
| `Search.FoldNoHeavier` | src/components/labelPlacement/optimizePositions.js:109-113 | under a ranking w, the fold ends no heavier than its start and no heavier than any candidate |
| `Search.FoldFirstStrict` | src/components/labelPlacement/optimizePositions.js:109-113 | under a ranking w, unless the fold keeps its start, the winner is adopted, strictly lighter than the start and than every earlier candidate |
| `Search.ReduceFirstMinimum` | src/components/labelPlacement/optimizePositions.js:91-113 | when cost comparison on the shared scope ranks the arrangements by a weight w, the fold returns the cheapest arrangement, the start on a tie, and otherwise the earliest strictly cheapest candidate |
| `Search.ReduceFromStart` | src/components/labelPlacement/optimizePositions.js:109-113 | from the unmoved arrangement, the fold keeps it exactly when no candidate is strictly cheaper; otherwise it returns a candidate unbeaten by every later one |
| `Search.FirstTier` | src/components/labelPlacement/optimizePositions.js:100 | every first-tier candidate touches exactly [index] and differs from the input only at index |
| `Search.Cascade` | src/components/labelPlacement/optimizePositions.js:103-106 | at most one candidate per diff; every cascade candidate moves the first overlapping label j, only when j is not 0, appends j to the touched indexes and changes nothing but label j |
| `Search.SecondTier` | src/components/labelPlacement/optimizePositions.js:103-107 | at most one diff table of candidates per first-tier candidate, and every cascade of every first-tier candidate is included |
| `Search.SecondTierSound` | src/components/labelPlacement/optimizePositions.js:103-107 | every second-tier candidate is a cascade of some first-tier candidate |
| `Search.SecondTierIsFlatMap` | src/components/labelPlacement/optimizePositions.js:103-107 | the second tier is the concatenation, in first-tier order, of each first-tier candidate's cascade |
| `Search.SecondTierAppend` | src/components/labelPlacement/optimizePositions.js:103-107 | the second tier of a concatenation is the second tier of the front followed by that of the back, so earlier first-tier candidates' cascades come first |
| `Search.CascadeReach` | src/components/labelPlacement/optimizePositions.js:103-106 | every cascade candidate is reached label by label from the first-tier candidate it cascades from |
| `Search.CascadeShape` | src/components/labelPlacement/optimizePositions.js:104-106 | a cascade from a first-tier candidate moves one movable overlapping label j, with 0 < j and j != index, and touches exactly [index, j] |
| `Search.SecondTierShape` | src/components/labelPlacement/optimizePositions.js:103-107 | every second-tier candidate touches exactly [index, j] for a movable j other than index and 0, and differs from the input only at index and j |
| `Search.Considered` | src/components/labelPlacement/optimizePositions.js:100-112 | at most d + d * d candidates for d diffs; the first tier comes first, in its own order, and every first-tier candidate and every cascade of one is considered |
| `Search.ConsideredReach` | src/components/labelPlacement/optimizePositions.js:100-112 | every considered candidate is reached label by label from the arrangement by accepted moves |
| `Search.ConsideredShape` | src/components/labelPlacement/optimizePositions.js:100-112 | every candidate considered is a first-tier move or a cascade of that shape |
| `Search.ConsideredKeepsFixed` | src/components/labelPlacement/optimizePositions.js:98-108 | no considered candidate changes the number of labels or any fixed label other than index |
| `Search.NextPlacement` | src/components/labelPlacement/optimizePositions.js:98-116 | the label stays put (not adopted) exactly when no considered candidate is strictly cheaper; otherwise the result is a considered candidate that no later candidate beats; the length is kept and fixed labels other than index are unchanged |
| `Search.NextPlacementFirstMinimum` | src/components/labelPlacement/optimizePositions.js:98-116 | when the cost comparison ranks the arrangements by a weight w, the label's step ends on the cheapest of the unmoved arrangement and all considered candidates; a move is strictly cheaper than staying and is the earliest considered candidate of its cost |
| `Search.NextReach` | src/components/labelPlacement/optimizePositions.js:98-116 | after one label's step, every label is reached from where it was |
| `Search.NextPlacementShape` | src/components/labelPlacement/optimizePositions.js:98-116 | the result is the initial arrangement, a first-tier move touching [index], or a cascade touching [index, j] |
| `Search.TieStability` | src/components/labelPlacement/optimizePositions.js:109-113 | when no candidate is strictly cheaper than the unmoved arrangement, the label stays put and nothing counts as adopted |
| `Search.SweepFrom` | src/components/labelPlacement/optimizePositions.js:128-133 | a sweep keeps every fixed label unchanged; if nothing is adopted, the arrangement is the one it started from |
| `Search.SweepFromReach` | src/components/labelPlacement/optimizePositions.js:128-137 | after a sweep, every label is reached from where it started |
| `Search.AdoptedStaysSet` | src/components/labelPlacement/optimizePositions.js:128-133 | once a step of the sweep has adopted a move, the sweep's result counts as adopted |
| `Search.SweepFromIdle` | src/components/labelPlacement/optimizePositions.js:128-137 | a sweep from label `index` adopts nothing exactly when every movable label from `index` on has no strictly cheaper considered candidate in the starting arrangement |
| `Search.Sweep` | src/components/labelPlacement/optimizePositions.js:127-138 | a full sweep keeps fixed labels and the length; a sweep that adopts nothing leaves the arrangement unchanged |
| `Search.SweepIdle` | src/components/labelPlacement/optimizePositions.js:127-139 | a full sweep adopts nothing, so the factor's loop breaks, exactly when every movable label has no strictly cheaper considered candidate |
| `Search.AllFixedSweepIsIdle` | src/components/labelPlacement/optimizePositions.js:130 | over an arrangement whose labels are all fixed, a sweep does nothing |
| `Search.ConvergeCount` | src/components/labelPlacement/optimizePositions.js:125-142 | for a step that returns its input when it adopts nothing, the bounded loop stops after StepCount steps, at most its budget, and early only when the next step adopts nothing |
| `Search.ConvergeKeepsFixed` | src/components/labelPlacement/optimizePositions.js:125-142 | a step that keeps fixed labels keeps them over any number of repetitions |
| `Search.ConvergeReach` | src/components/labelPlacement/optimizePositions.js:125-142 | a step after which every label is reached from where it was keeps that over any number of repetitions |
| `Search.RunSweeps` | src/components/labelPlacement/optimizePositions.js:125-142 | a factor's sweeps keep fixed labels and reach each label from where it was by accepted moves; when the first sweep adopts nothing, the factor returns its input |
| `Search.RunSweepsBounded` | src/components/labelPlacement/optimizePositions.js:125-142 | a factor's result is the arrangement after m sweeps, m at most the budget of 10; m is below the budget only when the next sweep would adopt nothing |
| `Search.SearchFrom` | src/components/labelPlacement/optimizePositions.js:123-143 | running the remaining factors keeps every fixed label and the length, and each label's result is reached from that label's own start by a sequence of accepted moves |
| `Search.SearchFromSettled` | src/components/labelPlacement/optimizePositions.js:118-145 | an arrangement whose movable labels are all settled at every remaining factor is returned unchanged |
| `Search.FindMostSuitablePosition` | src/components/labelPlacement/optimizePositions.js:118-145 | the result has one position per input label; fixed labels come back unchanged, and every label's position is reached from its own input position by accepted moves |
| `Search.SweepLoop` | src/components/labelPlacement/optimizePositions.js:127-138 | the label loop (fixed labels skipped) computes one sweep and its adopted flag |
| `Search.FactorLoop` | src/components/labelPlacement/optimizePositions.js:125-142 | the sweep loop with its early break computes the factor's bounded sweeps |
| `Search.SearchLoops` | src/components/labelPlacement/optimizePositions.js:118-145 | the three nested loops compute the recursive search definition |
| `Search.OptimizePositions` | src/components/labelPlacement/optimizePositions.js:147-165 | one entry per input label; each entry's position is reached from that label's normalized input by accepted moves (fixed labels keep it exactly), and its visible flag is the visibility predicate of that position |
| `Api.TrimShortId` | src/util/api.js:10-12 | without a space the id is unchanged; otherwise the result is the id with its first space removed |
| `Api.TrimShortIdDropsOneSpace` | src/util/api.js:11 | with a space present the length drops by exactly 1, and the characters are the input's less one space |
| `Api.StripLeadingZeros` | src/util/api.js:20 | the result is a suffix of the input, the dropped prefix is all '0', and the result does not start with '0' |
| `Api.TrimRouteId` | src/util/api.js:19-21 | the result never starts with '0'; it is a suffix of id[1..] whose dropped prefix is all '0' |
| `Api.TrimRouteIdUnique` | src/util/api.js:20 | any suffix of id[1..] that drops only zeros and does not start with '0' equals the result |
| `Api.TrimRouteIdAllZeros` | src/util/api.js:20 | an id of length at most 1, or with only '0' after its first character, trims to the empty string |
| `Routes.IsEqual` | src/util/routes.js:6-11 | every stop equals itself; two stops both lacking a terminal id are equal; equal stops share their terminal id or both names |
| `Routes.IsEqualMeaning` | src/util/routes.js:6-11 | isEqual holds exactly when both terminal ids are equal and non-null, or both names match; it is symmetric and reflexive |
| `Routes.MissingIdsCompareEqual` | src/util/routes.js:7-8 | two stops that both lack the terminalId field compare equal, whatever their names |
| `Routes.NamelessStopsCompareEqual` | src/util/routes.js:6-11 | a stop with a null terminal id and no names equals any other stop without names, in both argument orders |
| `Routes.IsEqualNotTransitive` | src/util/routes.js:6-11 | concrete case: stops equal by terminal and by names respectively, whose first and third are not equal |
| `Routes.Merge` | src/util/routes.js:13-16 | the merged destinations are stop's followed by other's; nothing else changes; with no destinations on either side, stop is returned unchanged |
| `Routes.MergeAssociative` | src/util/routes.js:13-16 | merging three stops collects the same destinations whatever the grouping, and keeps the first stop's other fields |
| `Routes.Prune` | src/util/routes.js:18-28 | prune appends exactly one gap whose destinations are the children's items' destinations followed by the branch's own; children are removed; it fails exactly when there is no children field, leaving the branch unchanged |
| `Routes.PruneCollectsDestinations` | src/util/routes.js:18-26 | the new gap carries every route destination of the children's and the branch's items |
| `Routes.FirstGap` | src/util/routes.js:32 | the index found is the first gap among the items |
| `Routes.Neighbour` | src/util/routes.js:36 | the removed neighbour is the one before the gap exactly when 2 * index > length, else the one after |
| `Routes.Truncate` | src/util/routes.js:30-49 | with a gap, the length drops by 1; without one, the last item becomes a gap with its destinations; it fails exactly when the items are empty or the needed neighbour is missing, leaving a single bare gap in the first case and the node unchanged in the second; children are kept |
| `Routes.TruncateAtGap` | src/util/routes.js:34-40 | exactly the gap's neighbour is removed, the other items keep their order, and the neighbour's destination list is pushed onto the gap as one nested element |
| `Routes.TruncateKeepsDestinations` | src/util/routes.js:30-49 | truncation loses no route destination: the multiset of terminus entries is unchanged |
| `Routes.RouteItems` | src/util/routes.js:58-65 | each stop becomes a stop item in order, and only the last carries [{routeId, title: destinationFi}] |
| `Routes.ItemLists` | src/util/routes.js:58-65 | one item list per route, in route order; list k has one stop item per stop of route k, in order, and only its last carries route k's destination |
| `Routes.ItemListsDestinations` | src/util/routes.js:58-65 | the item lists together carry exactly one terminus per route with stops, that route's id and Finnish destination, and no other |
| `Routes.RouteItemsOneDestination` | src/util/routes.js:59-64 | a route with stops contributes exactly one destination, its own |

## Left out

- Costs, angles and distances are unbounded integers; in the source they are floating point
  numbers. The model has no NaN. In the source a NaN cost makes `costOther < cost` false
  (optimizePositions.js:95), so the incumbent is kept, which is the same outcome the model gives
  for a candidate that is not strictly cheaper.
- The wall-clock timeout and the progress `console.log` lines of `findMostSuitablePosition` are
  left out. They are external time and I/O. The search ends through its fixed loop bounds (5
  factors, at most 10 sweeps each).
- The bodies of `updatePosition`, of the cost functions (`hasOverflow`, `getOverlapArea`, the eight
  cost terms, `removedCost` among them, and `shouldBeVisible`) and of `getIfOccupied` are not part of this model.
  They are float geometry over the rendered raster, and they are parameters of type `Geometry`.
  The canvas bounds, the alpha raster and the configuration are captured inside those functions.
- The initial `updatePosition(position)` call with no diff is the separate `normalize` function,
  and it is total. In the source that call could return a falsy value, and the `isFixed` read in
  `findMostSuitablePosition` would then throw. The model does not represent that failure.
- The monotonic decrease of total scene cost across a sweep is not stated. Arrangements are
  compared on the indexes they touch, so it holds only for a cost function that is local in that
  sense, which an arbitrary `Geometry` is not.
- `util/tree` (`itemsToTree`, `generalizeTree`, `sortBranches`) is not part of this model. So
  `routesToTree` is modelled only up to its item lists, and the `MAX_WIDTH`/`MAX_HEIGHT` limits are
  not used.
- `fetchStop` and `fetchRoutes` are left out. They are network I/O.
- Shared arrays are not modelled. In the source, truncation pushes onto the gap's destinations
  array in place, which would also change any other object holding that same array.
- A route's `routeId` and `destinationFi` are strings. They are only copied into the terminus
  entry, so a `null` there would be copied the same way, and the model does not track it.
- The stop records read by the route helpers carry only `terminalId`, `nameFi` and `nameSe`. A
  `destinations` field already on a fetched stop is not modelled.
- The React, GraphQL and CSS view code and the CSV and batch scripts are left out. They are
  presentation and I/O code around the core.

=== FILE: api.dfy ===
/** The id formatting helpers of the data-fetching layer. */
module Api {
  import opened Optional

  /** `indexOf`: the first position of `c` in `s`, if any. */
  function IndexOf(s: string, c: char): (r: Option<nat>)
    ensures r.Some? ==> r.value < |s| && s[r.value] == c && c !in s[..r.value]
    ensures r.None? ==> c !in s
  {
    if |s| == 0 then None
    else if s[0] == c then Some(0)
    else
      match IndexOf(s[1..], c)
      case None => None
      case Some(k) =>
        assert s[..k + 1] == [s[0]] + s[1..][..k];
        Some(k + 1)
  }

  /** trimShortId: removes the first space of a stop's short id (a string
      pattern in `replace` matches once); every other character is kept. */
  function TrimShortId(id: string): (r: string)
    ensures ' ' !in id ==> r == id
    ensures ' ' in id ==>
      exists k :: 0 <= k < |id| && id[k] == ' ' && ' ' !in id[..k] && r == id[..k] + id[k + 1..]
  {
    match IndexOf(id, ' ')
    case None => id
    case Some(k) => id[..k] + id[k + 1..]
  }

  /** With a space present, exactly one space is dropped: the result is one
      character shorter and holds the same characters less one space. */
  lemma TrimShortIdDropsOneSpace(id: string)
    requires ' ' in id
    ensures |TrimShortId(id)| == |id| - 1
    ensures multiset(TrimShortId(id)) == multiset(id) - multiset{' '}
  {
    var k := IndexOf(id, ' ').value;
    assert id == id[..k] + [' '] + id[k + 1..];
    assert multiset(id) == multiset(id[..k]) + multiset{' '} + multiset(id[k + 1..]);
  }

  /** `id.substring(1)`: everything after the area-code digit; empty for an
      empty id. */
  function Tail(id: string): string {
    if |id| == 0 then "" else id[1..]
  }

  /** `replace(/^[0]+/g, "")`: the longest suffix that does not start with '0'. */
  function StripLeadingZeros(s: string): (r: string)
    ensures |r| <= |s| && r == s[|s| - |r|..]
    ensures forall i :: 0 <= i < |s| - |r| ==> s[i] == '0'
    ensures r == [] || r[0] != '0'
  {
    if |s| > 0 && s[0] == '0' then StripLeadingZeros(s[1..]) else s
  }

  /** trimRouteId: the route id without its first character and without the
      leading zeros that follow it. */
  function TrimRouteId(id: string): (r: string)
    ensures r == [] || r[0] != '0'
    ensures |r| <= |Tail(id)| && r == Tail(id)[|Tail(id)| - |r|..]
    ensures forall i :: 0 <= i < |Tail(id)| - |r| ==> Tail(id)[i] == '0'
  {
    StripLeadingZeros(Tail(id))
  }

  /** The three properties of `TrimRouteId` determine its result: a suffix of
      the tail that drops only zeros and does not start with '0' is it. */
  lemma TrimRouteIdUnique(id: string, s: string)
    requires |s| <= |Tail(id)| && s == Tail(id)[|Tail(id)| - |s|..]
    requires forall i :: 0 <= i < |Tail(id)| - |s| ==> Tail(id)[i] == '0'
    requires s == [] || s[0] != '0'
    ensures s == TrimRouteId(id)
  {
  }

  /** An id of one character, or whose characters after the first are all
      zeros, trims to the empty string. */
  lemma TrimRouteIdAllZeros(id: string)
    requires forall i :: 1 <= i < |id| ==> id[i] == '0'
    ensures TrimRouteId(id) == ""
  {
    var t := Tail(id);
    var r := TrimRouteId(id);
    if |r| > 0 {
      assert r[0] == t[|t| - |r|] == id[|t| - |r| + 1];
    }
  }
}

=== FILE: candidates.dfy ===
/** Candidate generation for one label: the moves the search may try and
    the overlapping neighbour a move may cascade into. */
module Candidates {
  import opened Optional
  import opened Labels

  /** Label `i` is a cascade target for the label at `target`: a different,
      movable label whose box overlaps it. */
  predicate IsOverlapping(g: Geometry, positions: seq<Position>, target: nat, i: nat)
    requires target < |positions|
  {
    i < |positions| && i != target && !positions[i].isFixed
    && g.overlapArea(positions[i], positions[target]) > 0
  }

  /** The first cascade target at or after `from`, scanning in index order. */
  function OverlappingFrom(g: Geometry, positions: seq<Position>, target: nat, from: nat): (r: Option<nat>)
    requires target < |positions| && from <= |positions|
    ensures r.Some? ==> from <= r.value && IsOverlapping(g, positions, target, r.value)
    ensures r.Some? ==> forall i :: from <= i < r.value ==> !IsOverlapping(g, positions, target, i)
    ensures r.None? ==> forall i :: from <= i < |positions| ==> !IsOverlapping(g, positions, target, i)
    decreases |positions| - from
  {
    if from == |positions| then None
    else if IsOverlapping(g, positions, target, from) then Some(from)
    else OverlappingFrom(g, positions, target, from + 1)
  }

  /** getOverlappingItem: the smallest index of a movable label, other than
      `target`, whose box overlaps the target's; None when there is none. */
  function OverlappingItem(g: Geometry, positions: seq<Position>, target: nat): (r: Option<nat>)
    requires target < |positions|
    ensures r.Some? <==> exists i :: 0 <= i < |positions| && IsOverlapping(g, positions, target, i)
    ensures r.Some? ==>
      (r.value < |positions| && r.value != target && !positions[r.value].isFixed
       && g.overlapArea(positions[r.value], positions[target]) > 0)
    ensures r.Some? ==> forall i :: 0 <= i < r.value ==> !IsOverlapping(g, positions, target, i)
  {
    OverlappingFrom(g, positions, target, 0)
  }

  /** The moved label for diff `d`, or None when the move is rejected: the
      geometry refuses it, the moved box overflows the canvas and the label
      may not be hidden, or the cap is exceeded. The cap is checked on the
      label's current distance, not on the moved one. */
  function Move(g: Geometry, current: Position, d: Diff): (r: Option<Position>)
    ensures r.Some? ==> g.update(current, d) == r
    ensures r.Some? ==> current.allowHidden || !g.hasOverflow(r.value)
    ensures r.Some? ==> !CapExceeded(current)
    ensures r.None? && g.update(current, d).Some? ==>
      (!current.allowHidden && g.hasOverflow(g.update(current, d).value)) || CapExceeded(current)
  {
    match g.update(current, d)
    case None => None
    case Some(moved) =>
      if (!current.allowHidden && g.hasOverflow(moved)) || CapExceeded(current) then None
      else Some(moved)
  }

  /** getPlacements: one arrangement per accepted diff, in diff order, each
      equal to `p` except that label `index` is moved, and each touching
      `p`'s indexes followed by `index`. */
  function Placements(g: Geometry, p: Placement, index: nat, diffs: seq<Diff>): (r: seq<Placement>)
    requires index < |p.positions|
    ensures |r| <= |diffs|
    ensures forall k :: 0 <= k < |r| ==>
      SameExcept(p.positions, r[k].positions, {index}) && r[k].indexes == p.indexes + [index]
  {
    if |diffs| == 0 then []
    else
      var rest := Placements(g, p, index, diffs[1..]);
      match Move(g, p.positions[index], diffs[0])
      case None => rest
      case Some(moved) => [Placement(p.positions[index := moved], p.indexes + [index])] + rest
  }

  /** Every candidate moves label `index` by one of the diffs, and that diff
      is accepted by `Move`. */
  lemma {:induction false} PlacementsSound(g: Geometry, p: Placement, index: nat, diffs: seq<Diff>)
    requires index < |p.positions|
    ensures forall c :: c in Placements(g, p, index, diffs) ==>
      exists j :: 0 <= j < |diffs| && Move(g, p.positions[index], diffs[j]) == Some(c.positions[index])
  {
    if |diffs| > 0 {
      PlacementsSound(g, p, index, diffs[1..]);
      var rest := Placements(g, p, index, diffs[1..]);
      forall c | c in Placements(g, p, index, diffs)
        ensures exists j :: 0 <= j < |diffs| && Move(g, p.positions[index], diffs[j]) == Some(c.positions[index])
      {
        if c in rest {
          var j :| 0 <= j < |diffs[1..]| && Move(g, p.positions[index], diffs[1..][j]) == Some(c.positions[index]);
          assert diffs[1..][j] == diffs[j + 1];
        } else {
          assert Move(g, p.positions[index], diffs[0]) == Some(c.positions[index]);
        }
      }
    }
  }

  /** Candidate k of `r` moves label `index` from `a` by diff `js[k]`, and
      `js` is strictly increasing. */
  ghost predicate InDiffOrder(g: Geometry, a: Position, index: nat, diffs: seq<Diff>, r: seq<Placement>, js: seq<nat>) {
    |js| == |r|
    && (forall k :: 0 <= k < |r| ==>
          js[k] < |diffs| && index < |r[k].positions| && Move(g, a, diffs[js[k]]) == Some(r[k].positions[index]))
    && (forall k, k' :: 0 <= k < k' < |r| ==> js[k] < js[k'])
  }

  /** Each diff index moved up by one. */
  function Shifted(js: seq<nat>): (r: seq<nat>)
    ensures |r| == |js| && forall k :: 0 <= k < |js| ==> r[k] == js[k] + 1
  {
    seq(|js|, k requires 0 <= k < |js| => js[k] + 1)
  }

  lemma InDiffOrderShift(g: Geometry, a: Position, index: nat, diffs: seq<Diff>, r: seq<Placement>, js: seq<nat>)
    requires |diffs| > 0 && InDiffOrder(g, a, index, diffs[1..], r, js)
    ensures InDiffOrder(g, a, index, diffs, r, Shifted(js))
  {
    forall k | 0 <= k < |r|
      ensures diffs[Shifted(js)[k]] == diffs[1..][js[k]]
    {
    }
  }

  lemma InDiffOrderCons(g: Geometry, a: Position, index: nat, diffs: seq<Diff>, c: Placement, r: seq<Placement>, js: seq<nat>)
    requires |diffs| > 0 && index < |c.positions| && Move(g, a, diffs[0]) == Some(c.positions[index])
    requires InDiffOrder(g, a, index, diffs, r, Shifted(js))
    ensures InDiffOrder(g, a, index, diffs, [c] + r, [0] + Shifted(js))
  {
    var r', js' := [c] + r, [0] + Shifted(js);
    forall k | 0 < k < |r'|
      ensures r'[k] == r[k - 1] && js'[k] == Shifted(js)[k - 1]
    {
    }
  }

  /** The candidates come in the order of the diffs: candidate k moves
      label `index` by diff `js[k]`, and `js` is strictly increasing. */
  lemma {:induction false} PlacementsInDiffOrder(g: Geometry, p: Placement, index: nat, diffs: seq<Diff>)
    returns (js: seq<nat>)
    requires index < |p.positions|
    ensures InDiffOrder(g, p.positions[index], index, diffs, Placements(g, p, index, diffs), js)
    decreases |diffs|
  {
    if |diffs| == 0 {
      js := [];
    } else {
      var rest := PlacementsInDiffOrder(g, p, index, diffs[1..]);
      var tail := Placements(g, p, index, diffs[1..]);
      InDiffOrderShift(g, p.positions[index], index, diffs, tail, rest);
      if Move(g, p.positions[index], diffs[0]).None? {
        js := Shifted(rest);
      } else {
        var c := Placement(p.positions[index := Move(g, p.positions[index], diffs[0]).value], p.indexes + [index]);
        assert Placements(g, p, index, diffs) == [c] + tail;
        InDiffOrderCons(g, p.positions[index], index, diffs, c, tail, rest);
        js := [0] + Shifted(rest);
      }
    }
  }

  /** Every accepted diff yields a candidate: no valid move is dropped. */
  lemma {:induction false} PlacementsComplete(g: Geometry, p: Placement, index: nat, diffs: seq<Diff>)
    requires index < |p.positions|
    ensures forall j :: 0 <= j < |diffs| && Move(g, p.positions[index], diffs[j]).Some? ==>
      Placement(p.positions[index := Move(g, p.positions[index], diffs[j]).value], p.indexes + [index])
        in Placements(g, p, index, diffs)
  {
    if |diffs| > 0 {
      PlacementsComplete(g, p, index, diffs[1..]);
      forall j | 1 <= j < |diffs|
        ensures diffs[j] == diffs[1..][j - 1]
      {
      }
    }
  }

  /** Once a label's current distance exceeds its cap, every move is
      rejected, including those that would bring it back within the cap. */
  lemma {:induction false} ExceededCapFreezesLabel(g: Geometry, p: Placement, index: nat, diffs: seq<Diff>)
    requires index < |p.positions| && CapExceeded(p.positions[index])
    ensures Placements(g, p, index, diffs) == []
  {
    if |diffs| > 0 {
      ExceededCapFreezesLabel(g, p, index, diffs[1..]);
    }
  }

  /** A label that may not be hidden is never moved to an overflowing box. */
  lemma {:induction false} NoOverflowUnlessHideable(g: Geometry, p: Placement, index: nat, diffs: seq<Diff>)
    requires index < |p.positions| && !p.positions[index].allowHidden
    ensures forall c :: c in Placements(g, p, index, diffs) ==> !g.hasOverflow(c.positions[index])
  {
    if |diffs| > 0 {
      NoOverflowUnlessHideable(g, p, index, diffs[1..]);
    }
  }

  /** A cap of 0 is falsy in the source, so it caps nothing: only the
      geometry and the overflow test can reject a move. */
  lemma ZeroCapIsNoCap(g: Geometry, current: Position, d: Diff)
    requires current.maxDistance == Some(0)
    ensures Move(g, current, d).Some? <==>
      g.update(current, d).Some? && (current.allowHidden || !g.hasOverflow(g.update(current, d).value))
  {
  }

  /** The label reached from `a` by applying the moves `ds` in turn, or None
      once one of them is rejected. */
  function Follow(g: Geometry, a: Position, ds: seq<Diff>): Option<Position>
    decreases |ds|
  {
    if |ds| == 0 then Some(a)
    else match Move(g, a, ds[0])
      case None => None
      case Some(b) => Follow(g, b, ds[1..])
  }

  /** `b` is `a` after some sequence of accepted moves. */
  ghost predicate Reaches(g: Geometry, a: Position, b: Position) {
    exists ds: seq<Diff> :: Follow(g, a, ds) == Some(b)
  }

  /** Label by label, every entry of `qs` is reached from the same entry of `ps`. */
  ghost predicate AllReach(g: Geometry, ps: seq<Position>, qs: seq<Position>) {
    |ps| == |qs| && forall i :: 0 <= i < |ps| ==> Reaches(g, ps[i], qs[i])
  }

  /** Following `ds` then `es` is following `es` from where `ds` ended. */
  lemma {:induction false} FollowAppend(g: Geometry, a: Position, ds: seq<Diff>, es: seq<Diff>, b: Position)
    requires Follow(g, a, ds) == Some(b)
    ensures Follow(g, a, ds + es) == Follow(g, b, es)
    decreases |ds|
  {
    if |ds| == 0 {
      assert ds + es == es;
    } else {
      assert (ds + es)[1..] == ds[1..] + es;
      FollowAppend(g, Move(g, a, ds[0]).value, ds[1..], es, b);
    }
  }

  /** Reachability is reflexive and transitive, and contains every accepted move. */
  lemma ReachesRefl(g: Geometry, a: Position)
    ensures Reaches(g, a, a)
  {
    assert Follow(g, a, []) == Some(a);
  }

  lemma ReachesTrans(g: Geometry, a: Position, b: Position, c: Position)
    requires Reaches(g, a, b) && Reaches(g, b, c)
    ensures Reaches(g, a, c)
  {
    var ds :| Follow(g, a, ds) == Some(b);
    var es :| Follow(g, b, es) == Some(c);
    FollowAppend(g, a, ds, es, b);
  }

  lemma ReachesMove(g: Geometry, a: Position, d: Diff)
    requires Move(g, a, d).Some?
    ensures Reaches(g, a, Move(g, a, d).value)
  {
    assert [d][1..] == [];
    assert Follow(g, a, [d]) == Some(Move(g, a, d).value);
  }

  lemma AllReachRefl(g: Geometry, ps: seq<Position>)
    ensures AllReach(g, ps, ps)
  {
    forall i | 0 <= i < |ps|
      ensures Reaches(g, ps[i], ps[i])
    {
      ReachesRefl(g, ps[i]);
    }
  }

  lemma AllReachTrans(g: Geometry, ps: seq<Position>, qs: seq<Position>, rs: seq<Position>)
    requires AllReach(g, ps, qs) && AllReach(g, qs, rs)
    ensures AllReach(g, ps, rs)
  {
    forall i | 0 <= i < |ps|
      ensures Reaches(g, ps[i], rs[i])
    {
      ReachesTrans(g, ps[i], qs[i], rs[i]);
    }
  }

  /** Every candidate is reached label by label from the arrangement it was
      generated from: label `index` by one accepted move, the others not at all. */
  lemma PlacementsReach(g: Geometry, p: Placement, index: nat, diffs: seq<Diff>)
    requires index < |p.positions|
    ensures forall c :: c in Placements(g, p, index, diffs) ==> AllReach(g, p.positions, c.positions)
  {
    PlacementsSound(g, p, index, diffs);
    forall c | c in Placements(g, p, index, diffs)
      ensures AllReach(g, p.positions, c.positions)
    {
      var j :| 0 <= j < |diffs| && Move(g, p.positions[index], diffs[j]) == Some(c.positions[index]);
      ReachesMove(g, p.positions[index], diffs[j]);
      forall i | 0 <= i < |p.positions|
        ensures Reaches(g, p.positions[i], c.positions[i])
      {
        if i != index {
          ReachesRefl(g, p.positions[i]);
        }
      }
    }
  }

  /** A geometry that moves a label by adding the diff and accepts every
      box, with every cost zero. */
  function Shifting(): Geometry {
    var zero: CostTerm := (ps, ix) => 0;
    Geometry(
      (pos: Position, d: Diff) => Some(pos.(angle := pos.angle + d.angle, distance := pos.distance + d.distance)),
      (pos: Position) => pos,
      (pos: Position) => false,
      (a: Position, b: Position) => 0,
      CostModel(zero, zero, zero, zero, zero, zero, zero, zero),
      (pos: Position) => true)
  }

  /** The cap is checked on the label's distance before the move, so one
      accepted move can overshoot it: a label at its initial distance with a
      cap of 5 is moved 120 further out. */
  lemma CapCheckedBeforeMove()
    ensures var pos := Position(0, 0, 10, 10, 0, 10, 10, Some(5), false, false);
      var candidates := Placements(Shifting(), Placement([pos], []), 0, [Diff(0, 120)]);
      |candidates| == 1
      && candidates[0].positions[0].distance - pos.initialDistance > pos.maxDistance.value
  {
    var pos := Position(0, 0, 10, 10, 0, 10, 10, Some(5), false, false);
    assert Move(Shifting(), pos, Diff(0, 120)) == Some(pos.(distance := 130));
  }
}

=== FILE: labels.dfy ===
/** The data the label search works on. Geometry and scoring are not
    modelled: they enter as the function values of a `Geometry`. */
module Labels {
  import opened Optional

  /** One label or fixed marker. `x`, `y`, `width` and `height` are the box
      the geometry computes from the anchor and the polar offset
      (`angle`, `distance`); the search itself only reads the flags and
      the distance fields. `maxDistance` is absent when not configured. */
  datatype Position = Position(
    x: int, y: int, width: int, height: int,
    angle: int, distance: int, initialDistance: int,
    maxDistance: Option<int>,
    isFixed: bool, allowHidden: bool)

  /** A discrete move: added to the label's angle and distance. */
  datatype Diff = Diff(angle: int, distance: int)

  /** An arrangement: every label's position, plus the indexes touched since
      it was derived from its parent (the scope its cost is compared on). */
  datatype Placement = Placement(positions: seq<Position>, indexes: seq<nat>)

  /** A label of the final result, with its visibility stamped. */
  datatype Placed = Placed(position: Position, visible: bool)

  /** One term of the additive cost model, scored on the given indexes. */
  type CostTerm = (seq<Position>, seq<nat>) -> int

  /** The eight cost terms, in the order they are summed. The canvas bounds,
      the background raster and the configuration are captured inside them. */
  datatype CostModel = CostModel(
    overflow: CostTerm, overlap: CostTerm, distance: CostTerm, angle: CostTerm,
    intersection: CostTerm, fixedIntersection: CostTerm, alphaOverflow: CostTerm,
    removed: CostTerm)

  /** The geometry and scoring helpers the search calls but whose bodies are
      not part of this model: moving a label by a diff (or refusing to),
      normalizing an initial position, the canvas-overflow test, the overlap
      area of two boxes, the cost terms and the visibility predicate. */
  datatype Geometry = Geometry(
    update: (Position, Diff) -> Option<Position>,
    normalize: Position -> Position,
    hasOverflow: Position -> bool,
    overlapArea: (Position, Position) -> int,
    costs: CostModel,
    shouldBeVisible: Position -> bool)

  /** The cost of an arrangement restricted to `indexes`: the sum of the terms. */
  function Cost(g: Geometry, positions: seq<Position>, indexes: seq<nat>): int {
    var c := g.costs;
    c.overflow(positions, indexes)
    + c.overlap(positions, indexes)
    + c.distance(positions, indexes)
    + c.angle(positions, indexes)
    + c.intersection(positions, indexes)
    + c.fixedIntersection(positions, indexes)
    + c.alphaOverflow(positions, indexes)
    + c.removed(positions, indexes)
  }

  /** `maxDistance` is truthy: present and non-zero. */
  predicate CapIsSet(p: Position) {
    p.maxDistance.Some? && p.maxDistance.value != 0
  }

  /** The distance cap rejects every move of `p`: its current distance
      already lies more than the cap beyond its initial distance. */
  predicate CapExceeded(p: Position) {
    CapIsSet(p) && p.distance - p.initialDistance > p.maxDistance.value
  }

  /** `ps` and `qs` have the same length and agree outside `changed`. */
  ghost predicate SameExcept(ps: seq<Position>, qs: seq<Position>, changed: set<nat>) {
    |ps| == |qs| && forall i :: 0 <= i < |ps| && i !in changed ==> ps[i] == qs[i]
  }

  /** Every fixed label of `ps` is unchanged in `qs`. */
  ghost predicate KeepsFixed(ps: seq<Position>, qs: seq<Position>) {
    |ps| == |qs| && forall i :: 0 <= i < |ps| && ps[i].isFixed ==> qs[i] == ps[i]
  }
}

=== FILE: offsets.dfy ===
/** The discrete move neighbourhoods the label search tries: one table of
    (angle, distance) offsets per step factor, coarse to fine. */
module Offsets {
  import opened Labels

  /** Angle deltas, before scaling by the factor. */
  const Angles: seq<int> := [-6, -4, -2, -1, 0, 1, 2, 4, 6]
  /** Distance deltas, before scaling by the factor. */
  const Distances: seq<int> := [-4, -2, -1, 0, 1, 2, 4]
  /** Step factors, coarse to fine. */
  const Factors: seq<int> := [30, 20, 10, 5, 2]
  /** Maximum number of sweeps run at one factor. */
  const IterationsPerFactor: nat := 10

  /** The offsets for one angle: every distance delta, scaled. */
  function Row(angle: int, factor: int): seq<Diff> {
    seq(|Distances|, j requires 0 <= j < |Distances| => Diff(angle * factor, Distances[j] * factor))
  }

  /** The left fold that appends one row per angle, in angle order. */
  function Table(angles: seq<int>, factor: int): seq<Diff> {
    if |angles| == 0 then []
    else Table(angles[..|angles| - 1], factor) + Row(angles[|angles| - 1], factor)
  }

  /** A table is angle-major: entry k pairs angle k / |Distances| with
      distance k % |Distances|. */
  lemma {:induction false} TableShape(angles: seq<int>, factor: int)
    ensures |Table(angles, factor)| == |angles| * |Distances|
    ensures forall k :: 0 <= k < |angles| * |Distances| ==>
      Table(angles, factor)[k] == Diff(angles[k / |Distances|] * factor, Distances[k % |Distances|] * factor)
  {
    var w := |Distances|;
    assert w == 7;
    if |angles| > 0 {
      var n := |angles|;
      var front := angles[..n - 1];
      TableShape(front, factor);
      var t := Table(angles, factor);
      assert t == Table(front, factor) + Row(angles[n - 1], factor);
      forall k | 0 <= k < n * w
        ensures t[k] == Diff(angles[k / w] * factor, Distances[k % w] * factor)
      {
        if k < (n - 1) * w {
          assert t[k] == Table(front, factor)[k];
          assert front[k / w] == angles[k / w];
        } else {
          var j := k - (n - 1) * w;
          assert k / w == n - 1 && k % w == j;
          assert t[k] == Row(angles[n - 1], factor)[j];
        }
      }
    }
  }

  /** The offset table for one factor: all 9 x 7 = 63 moves, angle-major. */
  function DiffsFor(factor: int): (r: seq<Diff>)
    ensures |r| == 63
    ensures forall k :: 0 <= k < 63 ==> r[k] == Diff(Angles[k / 7] * factor, Distances[k % 7] * factor)
  {
    TableShape(Angles, factor);
    Table(Angles, factor)
  }

  /** One offset table per factor, in factor order: table i holds the 63
      moves (angle, distance) of the cross product scaled by factor i. */
  function DiffsArray(): (r: seq<seq<Diff>>)
    ensures |r| == |Factors|
    ensures forall i :: 0 <= i < |r| ==> |r[i]| == 63
    ensures forall i, k :: 0 <= i < |r| && 0 <= k < 63 ==>
      r[i][k] == Diff(Angles[k / 7] * Factors[i], Distances[k % 7] * Factors[i])
  {
    seq(|Factors|, i requires 0 <= i < |Factors| => DiffsFor(Factors[i]))
  }

  /** Every table holds the zero move, at entry 4 * 7 + 3: leaving the
      label where it is is always one of the offsets tried. */
  lemma TablesHoldZeroMove(i: nat)
    requires i < |Factors|
    ensures DiffsArray()[i][31] == Diff(0, 0)
  {
    assert DiffsArray()[i][31] == Diff(Angles[4] * Factors[i], Distances[3] * Factors[i]);
  }
}

=== FILE: optional.dfy ===
/** Option and Result values: JavaScript's `null`/`undefined` and thrown
    TypeErrors are modelled as explicit values rather than exceptions. */
module Optional {

  /** A value that may be absent (`null` or `undefined` in the source). */
  datatype Option<+T> = None | Some(value: T) {

    /** The value, or `default` when absent (the source's `x || default`). */
    function GetOr(default: T): T {
      match this
      case Some(v) => v
      case None => default
    }
  }

  /** The outcome of an operation that may throw. */
  datatype Result<+T, +E> = Ok(value: T) | Failure(error: E)
}

=== FILE: routes.dfy ===
/** The route-tree editing helpers: stop equality and merging for building
    the tree, and the pruning and truncation the generalization step applies
    to make the tree fit. The source mutates nodes in place; here each
    operation returns the new node. */
module Routes {
  import opened Optional

  /** A stop field as the fetched record holds it: `null`, absent
      (`undefined`), or a string. Datatype equality is the source's `===`. */
  datatype Field = Null | Undefined | Str(text: string)

  /** The stop fields the helpers read. */
  datatype Stop = Stop(terminalId: Field, nameFi: Field, nameSe: Field)

  /** A destination shown at the end of a branch, or a whole destination list
      pushed as one element by truncation. */
  datatype Destination = Terminus(routeId: string, title: string) | Group(list: seq<Destination>)

  /** An item of a branch: a stop, or a gap standing for omitted stops.
      `destinations` is absent when the field is not set. */
  datatype Item =
    | StopItem(stop: Stop, destinations: Option<seq<Destination>>)
    | GapItem(destinations: Option<seq<Destination>>)

  /** A tree node: its items and its child branches (absent once pruned). */
  datatype Node = Node(items: seq<Item>, children: Option<seq<Node>>)

  /** A route as fetched: id, Finnish destination name and its stops in order. */
  datatype Route = Route(routeId: string, destinationFi: string, stops: seq<Stop>)

  /** The source reads a property of `undefined` and throws; `node` is the
      node as the source leaves it at that moment. */
  datatype Error = TypeError(node: Node)

  /** `item.destinations || []`. */
  function Dests(item: Item): seq<Destination> {
    item.destinations.GetOr([])
  }

  /** isEqual: the same non-null terminal, or the same Finnish and Swedish
      names. Every stop equals itself, two stops that both lack the terminal
      id field are equal, and equal stops share their terminal id or both
      names. */
  function IsEqual(stop: Stop, other: Stop): (r: bool)
    ensures stop == other ==> r
    ensures stop.terminalId == Undefined && other.terminalId == Undefined ==> r
    ensures r ==> stop.terminalId == other.terminalId || (stop.nameFi == other.nameFi && stop.nameSe == other.nameSe)
  {
    (stop.terminalId != Null && stop.terminalId == other.terminalId)
    || (stop.nameFi == other.nameFi && stop.nameSe == other.nameSe)
  }

  /** isEqual holds exactly when both terminal ids are equal and non-null, or
      both names agree; so it is symmetric and reflexive. */
  lemma IsEqualMeaning(stop: Stop, other: Stop)
    ensures IsEqual(stop, other) <==>
      (stop.terminalId != Null && other.terminalId != Null && stop.terminalId == other.terminalId)
      || (stop.nameFi == other.nameFi && stop.nameSe == other.nameSe)
    ensures IsEqual(stop, other) == IsEqual(other, stop)
    ensures IsEqual(stop, stop)
  {
  }

  /** isEqual is not transitive: a shared terminal links the first two stops
      and shared names the last two, but the first and third share neither. */
  lemma IsEqualNotTransitive()
    ensures var a := Stop(Str("T1"), Str("A"), Str("A"));
      var b := Stop(Str("T1"), Str("B"), Str("B"));
      var c := Stop(Null, Str("B"), Str("B"));
      IsEqual(a, b) && IsEqual(b, c) && !IsEqual(a, c)
  {
  }

  /** `undefined !== null`, so two stops that both lack the terminal id field
      are equal whatever their names. */
  lemma MissingIdsCompareEqual(stop: Stop, other: Stop)
    requires stop.terminalId == Undefined && other.terminalId == Undefined
    ensures IsEqual(stop, other)
  {
  }

  /** Names compare with `===` too, so two stops without a usable terminal
      id and without either name compare equal. */
  lemma NamelessStopsCompareEqual(stop: Stop, other: Stop)
    requires stop.terminalId == Null
    requires stop.nameFi == other.nameFi == Undefined && stop.nameSe == other.nameSe == Undefined
    ensures IsEqual(stop, other)
    ensures IsEqual(other, stop)
  {
  }

  /** merge: `stop` with the destinations of both items, its own first; `stop`
      itself when neither has any. Nothing but the destinations changes. */
  function Merge(stop: Item, other: Item): (r: Item)
    ensures Dests(r) == Dests(stop) + Dests(other)
    ensures r.(destinations := stop.destinations) == stop
    ensures Dests(stop) == [] && Dests(other) == [] ==> r == stop
  {
    var destinations := Dests(stop) + Dests(other);
    if |destinations| > 0 then stop.(destinations := Some(destinations)) else stop
  }

  /** Merging is associative on destinations: folding merge over equal stops
      collects their destinations in order, whatever the grouping. */
  lemma MergeAssociative(a: Item, b: Item, c: Item)
    ensures Dests(Merge(Merge(a, b), c)) == Dests(Merge(a, Merge(b, c)))
    ensures Merge(Merge(a, b), c).(destinations := a.destinations) == a
  {
  }

  /** The items of all `nodes`, in order (a left fold of concatenation). */
  function NodeItems(nodes: seq<Node>): seq<Item> {
    if |nodes| == 0 then [] else NodeItems(nodes[..|nodes| - 1]) + nodes[|nodes| - 1].items
  }

  /** The destinations of all `items`, in order, without flattening groups. */
  function ItemDests(items: seq<Item>): seq<Destination> {
    if |items| == 0 then [] else ItemDests(items[..|items| - 1]) + Dests(items[|items| - 1])
  }

  /** Collecting items distributes over concatenation of node lists. */
  lemma {:induction false} NodeItemsAppend(a: seq<Node>, b: seq<Node>)
    ensures NodeItems(a + b) == NodeItems(a) + NodeItems(b)
    decreases |b|
  {
    if |b| > 0 {
      assert (a + b)[..|a + b| - 1] == a + b[..|b| - 1];
      NodeItemsAppend(a, b[..|b| - 1]);
    } else {
      assert a + b == a;
    }
  }

  /** Collecting destinations distributes over concatenation of item lists. */
  lemma {:induction false} ItemDestsAppend(a: seq<Item>, b: seq<Item>)
    ensures ItemDests(a + b) == ItemDests(a) + ItemDests(b)
    decreases |b|
  {
    if |b| > 0 {
      assert (a + b)[..|a + b| - 1] == a + b[..|b| - 1];
      ItemDestsAppend(a, b[..|b| - 1]);
    } else {
      assert a + b == a;
    }
  }

  /** prune: appends one gap holding the destinations of the children's items
      and then of the branch's own items, and removes the children. Throws
      when the node has no children field. */
  function Prune(branch: Node): (r: Result<Node, Error>)
    ensures r.Failure? <==> branch.children.None?
    ensures r.Failure? ==> r.error.node == branch
    ensures r.Ok? ==> r.value.children.None?
    ensures r.Ok? ==> |r.value.items| == |branch.items| + 1 && r.value.items[..|branch.items|] == branch.items
    ensures r.Ok? ==>
      r.value.items[|branch.items|] == GapItem(Some(ItemDests(NodeItems(branch.children.value)) + ItemDests(branch.items)))
  {
    match branch.children
    case None => Failure(TypeError(branch))
    case Some(children) =>
      var destinations := ItemDests(NodeItems(children + [branch]));
      NodeItemsAppend(children, [branch]);
      assert NodeItems([branch]) == [] + branch.items;
      ItemDestsAppend(NodeItems(children), branch.items);
      Ok(Node(branch.items + [GapItem(Some(destinations))], None))
  }

  /** The first gap among `items` at or after `from`. */
  function FirstGapFrom(items: seq<Item>, from: nat): (r: Option<nat>)
    requires from <= |items|
    ensures r.Some? ==> from <= r.value < |items| && items[r.value].GapItem?
    ensures r.Some? ==> forall i :: from <= i < r.value ==> !items[i].GapItem?
    ensures r.None? ==> forall i :: from <= i < |items| ==> !items[i].GapItem?
    decreases |items| - from
  {
    if from == |items| then None
    else if items[from].GapItem? then Some(from)
    else FirstGapFrom(items, from + 1)
  }

  /** `items.find(item => item.type === "gap")`, as an index. */
  function FirstGap(items: seq<Item>): (r: Option<nat>)
    ensures r.Some? ==>
      (r.value < |items| && items[r.value].GapItem? && forall i :: 0 <= i < r.value ==> !items[i].GapItem?)
    ensures r.None? ==> forall i :: 0 <= i < |items| ==> !items[i].GapItem?
  {
    FirstGapFrom(items, 0)
  }

  /** The neighbour truncation removes next to a gap at `gap` among `n`
      items: the one before it past the middle, else the one after it. */
  function Neighbour(gap: nat, n: nat): (j: int)
    ensures j == gap - 1 || j == gap + 1
    ensures j == gap - 1 <==> 2 * gap > n
  {
    if 2 * gap > n then gap - 1 else gap + 1
  }

  /** `s` without its element at `j`. */
  function RemoveAt<T>(s: seq<T>, j: nat): seq<T>
    requires j < |s|
  {
    s[..j] + s[j + 1..]
  }

  /** truncate: with a gap, removes the item next to the first gap and, when
      that item has destinations, pushes its list as one element onto the
      gap's; without a gap, replaces the last item by a gap carrying its
      destinations. Throws when the neighbour or the last item is missing; on
      an empty list the splice has already inserted a bare gap by then. */
  function Truncate(node: Node): (r: Result<Node, Error>)
    ensures r.Ok? ==> r.value.children == node.children
    ensures r.Failure? <==> |node.items| == 0 || (FirstGap(node.items) == Some(|node.items| - 1) && |node.items| <= 2)
    ensures r.Failure? && |node.items| == 0 ==> r.error.node == node.(items := [GapItem(None)])
    ensures r.Failure? && |node.items| > 0 ==> r.error.node == node
    ensures r.Ok? && FirstGap(node.items).Some? ==> |r.value.items| == |node.items| - 1
    ensures r.Ok? && FirstGap(node.items).None? ==>
      r.value.items == node.items[..|node.items| - 1] + [GapItem(node.items[|node.items| - 1].destinations)]
  {
    var items := node.items;
    match FirstGap(items)
    case Some(g) =>
      var j := Neighbour(g, |items|);
      if j >= |items| then Failure(TypeError(node))
      else
        var removed := items[j];
        var gap := items[g];
        var gap' := if removed.destinations.Some? then GapItem(Some(Dests(gap) + [Group(removed.destinations.value)])) else gap;
        Ok(node.(items := RemoveAt(items[g := gap'], j)))
    case None =>
      if |items| == 0 then Failure(TypeError(node.(items := [GapItem(None)])))
      else Ok(node.(items := items[..|items| - 1] + [GapItem(items[|items| - 1].destinations)]))
  }

  /** The item list built for one route: every stop becomes a stop item, and
      only the last one carries the route's destination. */
  function RouteItems(route: Route): (r: seq<Item>)
    ensures |r| == |route.stops|
    ensures forall i :: 0 <= i < |r| ==> r[i].StopItem? && r[i].stop == route.stops[i]
    ensures forall i :: 0 <= i < |r| - 1 ==> r[i].destinations.None?
    ensures |r| > 0 ==> r[|r| - 1].destinations == Some([Terminus(route.routeId, route.destinationFi)])
  {
    var n := |route.stops|;
    seq(n, i requires 0 <= i < n =>
      StopItem(route.stops[i], if i == n - 1 then Some([Terminus(route.routeId, route.destinationFi)]) else None))
  }

  /** The item lists of all routes, in route order. */
  function ItemLists(routes: seq<Route>): (r: seq<seq<Item>>)
    ensures |r| == |routes|
    ensures forall k :: 0 <= k < |r| ==> |r[k]| == |routes[k].stops|
    ensures forall k, i :: 0 <= k < |r| && 0 <= i < |r[k]| ==>
      r[k][i].StopItem? && r[k][i].stop == routes[k].stops[i]
    ensures forall k, i :: 0 <= k < |r| && 0 <= i < |r[k]| - 1 ==> r[k][i].destinations.None?
    ensures forall k :: 0 <= k < |r| && |r[k]| > 0 ==>
      r[k][|r[k]| - 1].destinations == Some([Terminus(routes[k].routeId, routes[k].destinationFi)])
  {
    seq(|routes|, k requires 0 <= k < |routes| => RouteItems(routes[k]))
  }

  /** With a gap, truncation drops exactly the neighbour `j` of the first
      gap; every other item keeps its order, and only the gap (now at `k`)
      may change, gaining the neighbour's destination list as one element. */
  lemma TruncateAtGap(node: Node)
    requires FirstGap(node.items).Some? && Truncate(node).Ok?
    ensures var items := node.items;
      var g := FirstGap(items).value;
      var j := Neighbour(g, |items|);
      var k := if j < g then g - 1 else g;
      var r := Truncate(node).value.items;
      0 <= j < |items| && 0 <= k < |r| && r[k].GapItem?
      && (forall i :: 0 <= i < |r| && i != k ==> r[i] == RemoveAt(items, j)[i])
      && (items[j].destinations.None? ==> r[k] == items[g])
      && (items[j].destinations.Some? ==> Dests(r[k]) == Dests(items[g]) + [Group(items[j].destinations.value)])
  {
  }

  /** The route destinations (terminus entries) inside a destination. */
  function Leaves(d: Destination): multiset<Destination>
    decreases d, 1
  {
    match d
    case Terminus(_, _) => multiset{d}
    case Group(list) => ListLeaves(list)
  }

  /** The terminus entries of a destination list, groups flattened. */
  function ListLeaves(ds: seq<Destination>): multiset<Destination>
    decreases ds, 0
  {
    if |ds| == 0 then multiset{} else ListLeaves(ds[..|ds| - 1]) + Leaves(ds[|ds| - 1])
  }

  /** The terminus entries of all destinations of `items`. */
  function ItemsLeaves(items: seq<Item>): multiset<Destination> {
    if |items| == 0 then multiset{} else ItemsLeaves(items[..|items| - 1]) + ListLeaves(Dests(items[|items| - 1]))
  }

  lemma {:induction false} ListLeavesAppend(a: seq<Destination>, b: seq<Destination>)
    ensures ListLeaves(a + b) == ListLeaves(a) + ListLeaves(b)
    decreases |b|
  {
    if |b| > 0 {
      assert (a + b)[..|a + b| - 1] == a + b[..|b| - 1];
      ListLeavesAppend(a, b[..|b| - 1]);
    } else {
      assert a + b == a;
    }
  }

  lemma {:induction false} ItemsLeavesAppend(a: seq<Item>, b: seq<Item>)
    ensures ItemsLeaves(a + b) == ItemsLeaves(a) + ItemsLeaves(b)
    decreases |b|
  {
    if |b| > 0 {
      assert (a + b)[..|a + b| - 1] == a + b[..|b| - 1];
      ItemsLeavesAppend(a, b[..|b| - 1]);
    } else {
      assert a + b == a;
    }
  }

  lemma {:induction false} ItemDestsLeaves(items: seq<Item>)
    ensures ListLeaves(ItemDests(items)) == ItemsLeaves(items)
    decreases |items|
  {
    if |items| > 0 {
      ItemDestsLeaves(items[..|items| - 1]);
      ListLeavesAppend(ItemDests(items[..|items| - 1]), Dests(items[|items| - 1]));
    }
  }

  /** The terminus entries of `a + [x] + b`. */
  lemma Split3(a: seq<Item>, x: Item, b: seq<Item>)
    ensures ItemsLeaves(a + [x] + b) == ItemsLeaves(a) + ListLeaves(Dests(x)) + ItemsLeaves(b)
  {
    ItemsLeavesAppend(a + [x], b);
    assert (a + [x])[..|a + [x]| - 1] == a;
  }

  /** The terminus entries of `a + [x]`. */
  lemma Snoc(a: seq<Item>, x: Item)
    ensures ItemsLeaves(a + [x]) == ItemsLeaves(a) + ListLeaves(Dests(x))
  {
    assert (a + [x])[..|a + [x]| - 1] == a;
  }

  /** Folding neighbour `second` into `first` (or the reverse) as `folded`
      keeps the terminus entries. */
  lemma FoldNeighbour(a: seq<Item>, first: Item, second: Item, folded: Item, b: seq<Item>)
    requires ListLeaves(Dests(folded)) == ListLeaves(Dests(first)) + ListLeaves(Dests(second))
    ensures ItemsLeaves(a + [folded] + b) == ItemsLeaves(a + [first, second] + b)
  {
    var la := ItemsLeaves(a);
    var lb := ItemsLeaves(b);
    ItemsLeavesAppend(a + [folded], b);
    Snoc(a, folded);
    assert ItemsLeaves(a + [folded] + b) == la + ListLeaves(Dests(folded)) + lb;
    assert a + [first, second] == (a + [first]) + [second];
    ItemsLeavesAppend(a + [first, second], b);
    Snoc(a + [first], second);
    Snoc(a, first);
    assert ItemsLeaves(a + [first, second] + b) == la + ListLeaves(Dests(first)) + ListLeaves(Dests(second)) + lb;
  }

  /** The gap after truncation holds the gap's and the neighbour's entries. */
  lemma GrownGapLeaves(gap: Item, removed: Item)
    requires removed.destinations.Some?
    ensures ListLeaves(Dests(GapItem(Some(Dests(gap) + [Group(removed.destinations.value)]))))
      == ListLeaves(Dests(gap)) + ListLeaves(Dests(removed))
  {
    ListLeavesAppend(Dests(gap), [Group(removed.destinations.value)]);
    assert [Group(removed.destinations.value)][..0] == [];
  }

  /** Truncation loses no route destination: the terminus entries of a
      node's items are the same before and after. */
  lemma TruncateKeepsDestinations(node: Node)
    requires Truncate(node).Ok?
    ensures ItemsLeaves(Truncate(node).value.items) == ItemsLeaves(node.items)
  {
    if FirstGap(node.items).None? {
      TruncateLastKeepsDestinations(node);
    } else {
      TruncateGapKeepsDestinations(node);
    }
  }

  lemma TruncateLastKeepsDestinations(node: Node)
    requires FirstGap(node.items).None? && |node.items| > 0
    ensures ItemsLeaves(Truncate(node).value.items) == ItemsLeaves(node.items)
  {
    var items := node.items;
    var n := |items|;
    var r := Truncate(node).value.items;
    assert r == items[..n - 1] + [GapItem(items[n - 1].destinations)];
    assert items == items[..n - 1] + [items[n - 1]];
    Snoc(items[..n - 1], items[n - 1]);
    Snoc(items[..n - 1], GapItem(items[n - 1].destinations));
  }

  lemma TruncateGapKeepsDestinations(node: Node)
    requires FirstGap(node.items).Some? && Truncate(node).Ok?
    ensures ItemsLeaves(Truncate(node).value.items) == ItemsLeaves(node.items)
  {
    var items := node.items;
    var n := |items|;
    var g := FirstGap(items).value;
    var j := Neighbour(g, n);
    var removed := items[j];
    var gap := items[g];
    var gap' := if removed.destinations.Some? then GapItem(Some(Dests(gap) + [Group(removed.destinations.value)])) else gap;
    assert Truncate(node).value.items == RemoveAt(items[g := gap'], j);
    if removed.destinations.Some? {
      GrownGapLeaves(gap, removed);
    }
    AdjacentSplit(items, g, j, gap');
    var lo := if j < g then j else g;
    if j < g {
      FoldNeighbour(items[..lo], removed, gap, gap', items[lo + 2..]);
    } else {
      FoldNeighbour(items[..lo], gap, removed, gap', items[lo + 2..]);
    }
  }

  /** Around two adjacent items `g` and `j`, replacing `g` and removing `j`
      leaves one item where the pair stood. */
  lemma AdjacentSplit(items: seq<Item>, g: nat, j: nat, gap': Item)
    requires g < |items| && j < |items| && (j == g - 1 || j == g + 1)
    ensures var lo := if j < g then j else g;
      items == items[..lo] + [items[lo], items[lo + 1]] + items[lo + 2..]
      && RemoveAt(items[g := gap'], j) == items[..lo] + [gap'] + items[lo + 2..]
  {
  }

  /** Pruning copies every route destination of the children's items and of
      the branch's own items into the new gap. */
  lemma PruneCollectsDestinations(branch: Node)
    requires branch.children.Some?
    ensures ItemsLeaves(Prune(branch).value.items)
      == ItemsLeaves(branch.items) + ItemsLeaves(NodeItems(branch.children.value)) + ItemsLeaves(branch.items)
  {
    var children := branch.children.value;
    var gap := GapItem(Some(ItemDests(NodeItems(children)) + ItemDests(branch.items)));
    assert Prune(branch).value.items == branch.items + [gap] + [];
    Split3(branch.items, gap, []);
    ListLeavesAppend(ItemDests(NodeItems(children)), ItemDests(branch.items));
    ItemDestsLeaves(NodeItems(children));
    ItemDestsLeaves(branch.items);
  }

  /** A route with stops contributes exactly one destination, its own. */
  lemma RouteItemsOneDestination(route: Route)
    requires |route.stops| > 0
    ensures ItemsLeaves(RouteItems(route)) == multiset{Terminus(route.routeId, route.destinationFi)}
  {
    var r := RouteItems(route);
    var n := |r|;
    assert r == r[..n - 1] + [r[n - 1]] + [];
    Split3(r[..n - 1], r[n - 1], []);
    NoDestinations(r[..n - 1]);
    assert [Terminus(route.routeId, route.destinationFi)][..0] == [];
  }

  lemma {:induction false} NoDestinations(items: seq<Item>)
    requires forall i :: 0 <= i < |items| ==> items[i].destinations.None?
    ensures ItemsLeaves(items) == multiset{}
    decreases |items|
  {
    if |items| > 0 {
      NoDestinations(items[..|items| - 1]);
    }
  }

  /** The terminus entries of several item lists together. */
  function ListsLeaves(lists: seq<seq<Item>>): multiset<Destination> {
    if |lists| == 0 then multiset{}
    else ListsLeaves(lists[..|lists| - 1]) + ItemsLeaves(lists[|lists| - 1])
  }

  /** One terminus per route that has stops: its id and Finnish destination. */
  function RouteTermini(routes: seq<Route>): multiset<Destination> {
    if |routes| == 0 then multiset{}
    else
      var last := routes[|routes| - 1];
      RouteTermini(routes[..|routes| - 1])
      + (if |last.stops| > 0 then multiset{Terminus(last.routeId, last.destinationFi)} else multiset{})
  }

  /** Together the item lists carry exactly one destination per route with
      stops, the route's own, and nothing else. */
  lemma {:induction false} ItemListsDestinations(routes: seq<Route>)
    ensures ListsLeaves(ItemLists(routes)) == RouteTermini(routes)
    decreases |routes|
  {
    if |routes| > 0 {
      var n := |routes|;
      var last := routes[n - 1];
      ItemListsDestinations(routes[..n - 1]);
      assert ItemLists(routes)[..n - 1] == ItemLists(routes[..n - 1]);
      if |last.stops| > 0 {
        RouteItemsOneDestination(last);
      } else {
        assert RouteItems(last) == [];
      }
    }
  }
}

=== FILE: search.dfy ===
/** The coarse-to-fine search driver: pairwise comparison of arrangements,
    the best next arrangement for one label (with a depth-one cascade),
    sweeps, per-factor convergence and the final projection. */
module Search {
  import opened Optional
  import opened Labels
  import opened Offsets
  import opened Candidates

  /** No index occurs twice. */
  predicate Distinct(xs: seq<nat>) {
    forall i, j :: 0 <= i < j < |xs| ==> xs[i] != xs[j]
  }

  /** `seen` followed by the values of `xs` not met before, each at its first
      occurrence. */
  function DedupOnto(seen: seq<nat>, xs: seq<nat>): (r: seq<nat>)
    requires Distinct(seen)
    ensures Distinct(r)
    ensures forall x :: x in r <==> x in seen || x in xs
    ensures |seen| <= |r| && r[..|seen|] == seen
    decreases |xs|
  {
    if |xs| == 0 then seen
    else if xs[0] in seen then DedupOnto(seen, xs[1..])
    else DedupOnto(seen + [xs[0]], xs[1..])
  }

  /** `[...new Set(xs)]`: the distinct values of `xs` in first-occurrence order. */
  function Dedup(xs: seq<nat>): (r: seq<nat>)
    ensures Distinct(r)
    ensures forall x :: x in r <==> x in xs
  {
    DedupOnto([], xs)
  }

  /** De-duplicating a list that has no duplicates changes nothing, so the
      order of the source list is kept. */
  lemma {:induction false} DedupKeepsDistinct(seen: seq<nat>, xs: seq<nat>)
    requires Distinct(seen) && Distinct(seen + xs)
    ensures DedupOnto(seen, xs) == seen + xs
    decreases |xs|
  {
    if |xs| > 0 {
      assert xs[0] !in seen by {
        forall i | 0 <= i < |seen| ensures seen[i] != xs[0] {
          assert (seen + xs)[i] == seen[i] && (seen + xs)[|seen|] == xs[0];
        }
      }
      assert seen + xs == (seen + [xs[0]]) + xs[1..];
      DedupKeepsDistinct(seen + [xs[0]], xs[1..]);
    }
  }

  /** The scope two arrangements are compared on: every index either touched. */
  function Scope(a: Placement, b: Placement): seq<nat> {
    Dedup(a.indexes + b.indexes)
  }

  /** `b` is strictly cheaper than `a` on their common scope. */
  predicate Improves(g: Geometry, a: Placement, b: Placement) {
    var scope := Scope(a, b);
    Cost(g, b.positions, scope) < Cost(g, a.positions, scope)
  }

  /** comparePlacements: `other` wins only when strictly cheaper on the
      de-duplicated union of both index lists; ties keep `placement`. */
  function Compare(g: Geometry, placement: Placement, other: Placement): (r: Placement)
    ensures r == other || r == placement
    ensures Improves(g, placement, other) ==> r == other
    ensures Cost(g, other.positions, Scope(placement, other)) >= Cost(g, placement.positions, Scope(placement, other))
      ==> r == placement
  {
    if Improves(g, placement, other) then other else placement
  }

  /** Both orders of comparison score on the same set of indexes, each once. */
  lemma ScopeIsUnion(a: Placement, b: Placement)
    ensures Distinct(Scope(a, b))
    ensures forall i :: i in Scope(a, b) <==> i in a.indexes || i in b.indexes
    ensures forall i :: i in Scope(a, b) <==> i in Scope(b, a)
  {
  }

  /** The winner so far, and whether it differs from the arrangement the
      search started from (the source compares object identity). */
  datatype Choice = Choice(placement: Placement, adopted: bool)

  /** No candidate after position `k` is strictly cheaper than `w`. */
  ghost predicate UnbeatenAfter(g: Geometry, w: Placement, candidates: seq<Placement>, k: int) {
    forall k' :: 0 <= k' < |candidates| && k < k' ==> !Improves(g, w, candidates[k'])
  }

  /** The left fold of `Compare` over `candidates`, starting from `acc`: the
      start is kept unless some candidate is strictly cheaper than it. */
  function Reduce(g: Geometry, acc: Choice, candidates: seq<Placement>): (r: Choice)
    ensures r == acc || (r.adopted && r.placement in candidates)
    ensures (forall c :: c in candidates ==> !Improves(g, acc.placement, c)) ==> r == acc
    decreases |candidates|
  {
    if |candidates| == 0 then acc
    else
      var c := candidates[0];
      var next := Choice(Compare(g, acc.placement, c), acc.adopted || Improves(g, acc.placement, c));
      Reduce(g, next, candidates[1..])
  }

  /** Either no candidate beats the start and it is kept, or the winner is
      some candidate `k` that no later candidate beats: the earliest of
      equally cheap arrangements stays. */
  lemma {:induction false} ReduceUnbeaten(g: Geometry, acc: Choice, candidates: seq<Placement>)
    ensures var r := Reduce(g, acc, candidates);
      (r == acc && UnbeatenAfter(g, acc.placement, candidates, -1))
      || (r.adopted && exists k :: (0 <= k < |candidates| && r.placement == candidates[k]
            && UnbeatenAfter(g, r.placement, candidates, k)))
    decreases |candidates|
  {
    if |candidates| > 0 {
      var c := candidates[0];
      var rest := candidates[1..];
      var next := Choice(Compare(g, acc.placement, c), acc.adopted || Improves(g, acc.placement, c));
      var r := Reduce(g, next, rest);
      assert Reduce(g, acc, candidates) == r;
      ReduceUnbeaten(g, next, rest);
      if r == next && UnbeatenAfter(g, next.placement, rest, -1) {
        UnbeatenShift(g, next.placement, candidates, -1);
        if Improves(g, acc.placement, c) {
          assert r.adopted && r.placement == candidates[0];
        } else {
          assert next == acc;
        }
      } else {
        var k :| 0 <= k < |rest| && r.placement == rest[k] && UnbeatenAfter(g, r.placement, rest, k);
        UnbeatenShift(g, r.placement, candidates, k);
        assert r.placement == candidates[k + 1];
      }
    }
  }

  /** Being unbeaten after `k` in the tail is being unbeaten after `k + 1`
      in the whole list. */
  lemma UnbeatenShift(g: Geometry, w: Placement, candidates: seq<Placement>, k: int)
    requires |candidates| > 0 && -1 <= k
    requires UnbeatenAfter(g, w, candidates[1..], k)
    ensures UnbeatenAfter(g, w, candidates, k + 1)
  {
    forall k' | 0 <= k' < |candidates| && k + 1 < k'
      ensures !Improves(g, w, candidates[k'])
    {
      assert candidates[k'] == candidates[1..][k' - 1];
    }
  }

  /** The first tier: label `index` alone moved by each accepted diff, each
      candidate touching exactly `[index]`. */
  function FirstTier(g: Geometry, p: Placement, index: nat, diffs: seq<Diff>): (r: seq<Placement>)
    requires index < |p.positions|
    ensures forall c :: c in r ==> c.indexes == [index] && SameExcept(p.positions, c.positions, {index})
  {
    Placements(g, Placement(p.positions, []), index, diffs)
  }

  /** The cascade from one first-tier candidate: the first movable label it
      overlaps is moved as well. An overlap with label 0 is ignored, since
      the source tests the index for truthiness. */
  function Cascade(g: Geometry, q: Placement, index: nat, diffs: seq<Diff>): (r: seq<Placement>)
    requires index < |q.positions|
    ensures |r| <= |diffs|
    ensures forall c :: c in r ==>
      OverlappingItem(g, q.positions, index).Some?
      && var j := OverlappingItem(g, q.positions, index).value;
      j != 0 && c.indexes == q.indexes + [j] && SameExcept(q.positions, c.positions, {j})
  {
    match OverlappingItem(g, q.positions, index)
    case None => []
    case Some(j) => if j == 0 then [] else Placements(g, q, j, diffs)
  }

  /** The second tier: the cascades of all first-tier candidates, in order. */
  function SecondTier(g: Geometry, first: seq<Placement>, index: nat, diffs: seq<Diff>): (r: seq<Placement>)
    requires forall k :: 0 <= k < |first| ==> index < |first[k].positions|
    ensures |r| <= |first| * |diffs|
    ensures forall k, c :: 0 <= k < |first| && c in Cascade(g, first[k], index, diffs) ==> c in r
    decreases |first|
  {
    if |first| == 0 then []
    else
      var rest := SecondTier(g, first[1..], index, diffs);
      assert (|first| - 1) * |diffs| + |diffs| == |first| * |diffs|;
      assert forall k :: 1 <= k < |first| ==> first[k] == first[1..][k - 1];
      Cascade(g, first[0], index, diffs) + rest
  }

  /** `f` applied to each of `xs` in turn, the results concatenated. */
  function FlatMap(f: Placement -> seq<Placement>, xs: seq<Placement>): seq<Placement>
    decreases |xs|
  {
    if |xs| == 0 then [] else f(xs[0]) + FlatMap(f, xs[1..])
  }

  lemma {:induction false} FlatMapAppend(f: Placement -> seq<Placement>, a: seq<Placement>, b: seq<Placement>)
    ensures FlatMap(f, a + b) == FlatMap(f, a) + FlatMap(f, b)
    decreases |a|
  {
    if |a| == 0 {
      assert a + b == b;
    } else {
      assert (a + b)[0] == a[0] && (a + b)[1..] == a[1..] + b;
      FlatMapAppend(f, a[1..], b);
    }
  }

  /** The cascade of label `index` from any arrangement that has that label. */
  function CascadeOf(g: Geometry, index: nat, diffs: seq<Diff>): Placement -> seq<Placement> {
    (q: Placement) => if index < |q.positions| then Cascade(g, q, index, diffs) else []
  }

  lemma {:induction false} SecondTierIsFlatMap(g: Geometry, first: seq<Placement>, index: nat, diffs: seq<Diff>)
    requires forall k :: 0 <= k < |first| ==> index < |first[k].positions|
    ensures SecondTier(g, first, index, diffs) == FlatMap(CascadeOf(g, index, diffs), first)
    decreases |first|
  {
    if |first| > 0 {
      SecondTierIsFlatMap(g, first[1..], index, diffs);
    }
  }

  /** The second tier of a concatenation is the concatenation of the second
      tiers: cascades of earlier first-tier candidates come first. */
  lemma SecondTierAppend(g: Geometry, a: seq<Placement>, b: seq<Placement>, index: nat, diffs: seq<Diff>)
    requires forall k :: 0 <= k < |a| ==> index < |a[k].positions|
    requires forall k :: 0 <= k < |b| ==> index < |b[k].positions|
    ensures SecondTier(g, a + b, index, diffs) == SecondTier(g, a, index, diffs) + SecondTier(g, b, index, diffs)
  {
    SecondTierIsFlatMap(g, a, index, diffs);
    SecondTierIsFlatMap(g, b, index, diffs);
    SecondTierIsFlatMap(g, a + b, index, diffs);
    FlatMapAppend(CascadeOf(g, index, diffs), a, b);
  }

  /** Every second-tier candidate comes from the cascade of some first-tier
      candidate. */
  lemma {:induction false} SecondTierSound(g: Geometry, first: seq<Placement>, index: nat, diffs: seq<Diff>)
    requires forall k :: 0 <= k < |first| ==> index < |first[k].positions|
    ensures forall c :: c in SecondTier(g, first, index, diffs) ==>
      exists k :: 0 <= k < |first| && c in Cascade(g, first[k], index, diffs)
    decreases |first|
  {
    if |first| > 0 {
      SecondTierSound(g, first[1..], index, diffs);
      forall c | c in SecondTier(g, first, index, diffs)
        ensures exists k :: 0 <= k < |first| && c in Cascade(g, first[k], index, diffs)
      {
        if c !in Cascade(g, first[0], index, diffs) {
          assert c in SecondTier(g, first[1..], index, diffs);
          var k :| 0 <= k < |first[1..]| && c in Cascade(g, first[1..][k], index, diffs);
          assert first[1..][k] == first[k + 1];
        }
      }
    }
  }

  /** `c` moves label `index` and one other movable label `j`, never label 0,
      and touches exactly `[index, j]`. */
  ghost predicate Cascaded(p: Placement, c: Placement, index: nat, j: nat) {
    0 < j < |p.positions| && j != index && !p.positions[j].isFixed
    && c.indexes == [index, j] && SameExcept(p.positions, c.positions, {index, j})
  }

  /** A cascade from a first-tier candidate `q` of `p` moves label `index`
      and one further movable label `j`, and no other, relative to `p`. */
  lemma CascadeShape(g: Geometry, p: Placement, q: Placement, index: nat, diffs: seq<Diff>)
    requires index < |p.positions|
    requires q.indexes == [index] && SameExcept(p.positions, q.positions, {index})
    ensures forall c :: c in Cascade(g, q, index, diffs) ==> exists j :: Cascaded(p, c, index, j)
  {
    match OverlappingItem(g, q.positions, index)
    case None =>
    case Some(j) =>
      if j != 0 {
        assert q.positions[j] == p.positions[j];
        forall c | c in Placements(g, q, j, diffs)
          ensures Cascaded(p, c, index, j)
        {
          assert SameExcept(q.positions, c.positions, {j});
        }
      }
  }

  /** Every second-tier candidate moves label `index` and one overlapping
      movable label other than label 0. */
  lemma {:induction false} SecondTierShape(g: Geometry, p: Placement, first: seq<Placement>, index: nat, diffs: seq<Diff>)
    requires index < |p.positions|
    requires forall k :: 0 <= k < |first| ==>
      |first[k].positions| == |p.positions| && first[k].indexes == [index]
      && SameExcept(p.positions, first[k].positions, {index})
    ensures forall c :: c in SecondTier(g, first, index, diffs) ==> exists j :: Cascaded(p, c, index, j)
    decreases |first|
  {
    if |first| > 0 {
      assert first[0] in first;
      CascadeShape(g, p, first[0], index, diffs);
      SecondTierShape(g, p, first[1..], index, diffs);
    }
  }

  /** Every candidate `getNextPlacement` considers, in order: the unmoved
      arrangement first, then the first tier, then the second tier. */
  function Considered(g: Geometry, p: Placement, index: nat, diffs: seq<Diff>): (r: seq<Placement>)
    requires index < |p.positions|
    ensures |r| <= |diffs| + |diffs| * |diffs|
    ensures |FirstTier(g, p, index, diffs)| <= |r| && r[..|FirstTier(g, p, index, diffs)|] == FirstTier(g, p, index, diffs)
    ensures forall c :: c in FirstTier(g, p, index, diffs) ==> c in r
    ensures forall q, c :: q in FirstTier(g, p, index, diffs) && c in Cascade(g, q, index, diffs) ==> c in r
  {
    var first := FirstTier(g, p, index, diffs);
    assert |first| * |diffs| <= |diffs| * |diffs|;
    assert forall q :: q in first ==> exists k :: 0 <= k < |first| && first[k] == q;
    first + SecondTier(g, first, index, diffs)
  }

  /** Every moved candidate changes label `index`, and possibly one movable
      label it overlaps; fixed labels other than `index` are never changed. */
  lemma ConsideredShape(g: Geometry, p: Placement, index: nat, diffs: seq<Diff>)
    requires index < |p.positions|
    ensures forall c :: c in Considered(g, p, index, diffs) ==>
      (c.indexes == [index] && SameExcept(p.positions, c.positions, {index}))
      || exists j :: Cascaded(p, c, index, j)
  {
    var first := FirstTier(g, p, index, diffs);
    SecondTierShape(g, p, first, index, diffs);
  }

  /** No considered candidate changes the number of labels or a fixed label
      other than `index`. */
  lemma ConsideredKeepsFixed(g: Geometry, p: Placement, index: nat, diffs: seq<Diff>)
    requires index < |p.positions|
    ensures forall c :: c in Considered(g, p, index, diffs) ==>
      |c.positions| == |p.positions|
      && forall i :: 0 <= i < |p.positions| && i != index && p.positions[i].isFixed ==> c.positions[i] == p.positions[i]
  {
    ConsideredShape(g, p, index, diffs);
    forall c | c in Considered(g, p, index, diffs)
      ensures |c.positions| == |p.positions|
      ensures forall i :: 0 <= i < |p.positions| && i != index && p.positions[i].isFixed ==> c.positions[i] == p.positions[i]
    {
      ShapeKeepsFixed(p, c, index);
    }
  }

  /** Every cascade candidate is reached label by label from the first-tier
      candidate it cascades from, by one accepted move of the overlapping label. */
  lemma CascadeReach(g: Geometry, q: Placement, index: nat, diffs: seq<Diff>)
    requires index < |q.positions|
    ensures forall c :: c in Cascade(g, q, index, diffs) ==> AllReach(g, q.positions, c.positions)
  {
    match OverlappingItem(g, q.positions, index)
    case None =>
    case Some(j) =>
      if j != 0 {
        PlacementsReach(g, q, j, diffs);
      }
  }

  /** Every considered candidate is reached label by label from `p` by
      accepted moves: one for a first-tier move, two for a cascade. */
  lemma ConsideredReach(g: Geometry, p: Placement, index: nat, diffs: seq<Diff>)
    requires index < |p.positions|
    ensures forall c :: c in Considered(g, p, index, diffs) ==> AllReach(g, p.positions, c.positions)
  {
    var first := FirstTier(g, p, index, diffs);
    PlacementsReach(g, Placement(p.positions, []), index, diffs);
    SecondTierSound(g, first, index, diffs);
    forall c | c in Considered(g, p, index, diffs)
      ensures AllReach(g, p.positions, c.positions)
    {
      if c !in first {
        assert c in SecondTier(g, first, index, diffs);
        var k :| 0 <= k < |first| && c in Cascade(g, first[k], index, diffs);
        assert first[k] in first;
        CascadeReach(g, first[k], index, diffs);
        AllReachTrans(g, p.positions, first[k].positions, c.positions);
      }
    }
  }


  /** A move of `index` alone, or a cascade onto a movable label, keeps every
      fixed label other than `index`. */
  lemma ShapeKeepsFixed(p: Placement, c: Placement, index: nat)
    requires (c.indexes == [index] && SameExcept(p.positions, c.positions, {index}))
      || exists j :: Cascaded(p, c, index, j)
    ensures |c.positions| == |p.positions|
    ensures forall i :: 0 <= i < |p.positions| && i != index && p.positions[i].isFixed ==> c.positions[i] == p.positions[i]
  {
    if !(c.indexes == [index] && SameExcept(p.positions, c.positions, {index})) {
      var j :| Cascaded(p, c, index, j);
    }
  }

  /** getNextPlacement: the cheapest of the unmoved arrangement and every
      candidate, preferring the earlier one on ties. The label stays put
      exactly when no considered candidate is strictly cheaper; otherwise it
      takes a considered candidate that no later candidate beats. */
  function NextPlacement(g: Geometry, p: Placement, index: nat, diffs: seq<Diff>): (r: Choice)
    requires index < |p.positions|
    ensures !r.adopted ==> r.placement == p
    ensures r.adopted ==> r.placement in Considered(g, p, index, diffs)
    ensures !r.adopted <==> forall c :: c in Considered(g, p, index, diffs) ==> !Improves(g, p, c)
    ensures r.adopted ==> exists k :: (0 <= k < |Considered(g, p, index, diffs)|
      && r.placement == Considered(g, p, index, diffs)[k]
      && UnbeatenAfter(g, r.placement, Considered(g, p, index, diffs), k))
    ensures |r.placement.positions| == |p.positions|
    ensures forall i :: 0 <= i < |p.positions| && i != index && p.positions[i].isFixed ==>
      r.placement.positions[i] == p.positions[i]
  {
    var candidates := Considered(g, p, index, diffs);
    ConsideredKeepsFixed(g, p, index, diffs);
    ReduceFromStart(g, p, candidates);
    Reduce(g, Choice(p, false), candidates)
  }

  /** Folding from an unadopted start: the start is kept exactly when no
      candidate beats it, and otherwise the winner is unbeaten by every
      later candidate. */
  lemma ReduceFromStart(g: Geometry, p: Placement, candidates: seq<Placement>)
    ensures var r := Reduce(g, Choice(p, false), candidates);
      (!r.adopted ==> r.placement == p)
      && (!r.adopted <==> forall c :: c in candidates ==> !Improves(g, p, c))
      && (r.adopted ==> exists k :: (0 <= k < |candidates| && r.placement == candidates[k]
            && UnbeatenAfter(g, r.placement, candidates, k)))
  {
    var r := Reduce(g, Choice(p, false), candidates);
    ReduceUnbeaten(g, Choice(p, false), candidates);
    if r == Choice(p, false) {
      assert UnbeatenAfter(g, p, candidates, -1);
      forall c | c in candidates ensures !Improves(g, p, c) {
        var k :| 0 <= k < |candidates| && candidates[k] == c;
      }
    }
  }

  /** `w` ranks the arrangements of `pool` the way `better` compares them:
      `better(a, b)` holds exactly when `w(b) < w(a)`. */
  ghost predicate Ranks(better: (Placement, Placement) -> bool, w: Placement -> int, pool: seq<Placement>) {
    forall a, b :: a in pool && b in pool ==> (better(a, b) <==> w(b) < w(a))
  }

  /** `Improves` under `g`, as a comparison function. */
  function ImprovesUnder(g: Geometry): (Placement, Placement) -> bool {
    (a, b) => Improves(g, a, b)
  }

  /** `w` ranks the arrangements of `pool` the way `Improves` compares them.
      This holds, for instance, when the cost of every arrangement in `pool`
      does not depend on the scope it is scored on. */
  ghost predicate RankedBy(g: Geometry, w: Placement -> int, pool: seq<Placement>) {
    Ranks(ImprovesUnder(g), w, pool)
  }

  /** The fold of `Reduce` for any comparison: a candidate replaces the
      incumbent only when `better` says so. */
  function FoldBest(better: (Placement, Placement) -> bool, acc: Choice, candidates: seq<Placement>): Choice
    decreases |candidates|
  {
    if |candidates| == 0 then acc
    else
      var c := candidates[0];
      var next := Choice(if better(acc.placement, c) then c else acc.placement, acc.adopted || better(acc.placement, c));
      FoldBest(better, next, candidates[1..])
  }

  lemma {:induction false} ReduceIsFoldBest(g: Geometry, acc: Choice, candidates: seq<Placement>)
    ensures Reduce(g, acc, candidates) == FoldBest(ImprovesUnder(g), acc, candidates)
    decreases |candidates|
  {
    if |candidates| > 0 {
      var c := candidates[0];
      var next := Choice(Compare(g, acc.placement, c), acc.adopted || Improves(g, acc.placement, c));
      assert ImprovesUnder(g)(acc.placement, c) == Improves(g, acc.placement, c);
      ReduceIsFoldBest(g, next, candidates[1..]);
    }
  }

  /** Under a ranking `w`, the fold selects the first minimum: the winner
      costs no more than the start or any candidate, and unless it is the
      start it is strictly cheaper than the start and than every earlier
      candidate. */
  lemma FoldFirstMinimum(better: (Placement, Placement) -> bool, w: Placement -> int,
                         acc: Choice, candidates: seq<Placement>)
    requires Ranks(better, w, [acc.placement] + candidates)
    ensures var r := FoldBest(better, acc, candidates);
      w(r.placement) <= w(acc.placement)
      && (forall c :: c in candidates ==> w(r.placement) <= w(c))
      && (r == acc
          || (r.adopted && w(r.placement) < w(acc.placement)
              && exists k :: (0 <= k < |candidates| && r.placement == candidates[k]
                   && forall k' :: 0 <= k' < k ==> w(candidates[k']) > w(r.placement))))
  {
    FoldNoHeavier(better, w, acc, candidates);
    FoldFirstStrict(better, w, acc, candidates);
  }

  /** One step of the fold keeps the pool ranked, and adopts the candidate
      exactly when it is strictly lighter than the incumbent. */
  lemma RanksStep(better: (Placement, Placement) -> bool, w: Placement -> int, acc: Choice, candidates: seq<Placement>)
    requires |candidates| > 0 && Ranks(better, w, [acc.placement] + candidates)
    ensures better(acc.placement, candidates[0]) <==> w(candidates[0]) < w(acc.placement)
    ensures Ranks(better, w, [if better(acc.placement, candidates[0]) then candidates[0] else acc.placement] + candidates[1..])
  {
    var pool := [acc.placement] + candidates;
    var next := if better(acc.placement, candidates[0]) then candidates[0] else acc.placement;
    assert acc.placement == pool[0] && candidates[0] == pool[1];
    forall a | a in [next] + candidates[1..]
      ensures a in pool
    {
      if a != next {
        var i :| 0 <= i < |candidates[1..]| && candidates[1..][i] == a;
        assert pool[i + 2] == a;
      }
    }
  }

  /** The winner of the fold is no heavier than the start or any candidate. */
  lemma {:induction false} FoldNoHeavier(better: (Placement, Placement) -> bool, w: Placement -> int,
                                         acc: Choice, candidates: seq<Placement>)
    requires Ranks(better, w, [acc.placement] + candidates)
    ensures var r := FoldBest(better, acc, candidates);
      w(r.placement) <= w(acc.placement) && forall c :: c in candidates ==> w(r.placement) <= w(c)
    decreases |candidates|
  {
    if |candidates| > 0 {
      var c := candidates[0];
      var rest := candidates[1..];
      var next := Choice(if better(acc.placement, c) then c else acc.placement, acc.adopted || better(acc.placement, c));
      RanksStep(better, w, acc, candidates);
      FoldNoHeavier(better, w, next, rest);
      var r := FoldBest(better, next, rest);
      forall c' | c' in candidates
        ensures w(r.placement) <= w(c')
      {
        if c' != c {
          var i :| 0 <= i < |candidates| && candidates[i] == c';
          assert c' == rest[i - 1];
        }
      }
    }
  }

  /** Unless the fold keeps its start, the winner is adopted, strictly
      lighter than the start, and strictly lighter than every candidate
      before it. */
  lemma {:induction false} FoldFirstStrict(better: (Placement, Placement) -> bool, w: Placement -> int,
                                           acc: Choice, candidates: seq<Placement>)
    requires Ranks(better, w, [acc.placement] + candidates)
    ensures var r := FoldBest(better, acc, candidates);
      r == acc
      || (r.adopted && w(r.placement) < w(acc.placement)
          && exists k :: (0 <= k < |candidates| && r.placement == candidates[k]
               && forall k' :: 0 <= k' < k ==> w(candidates[k']) > w(r.placement)))
    decreases |candidates|
  {
    if |candidates| > 0 {
      var c := candidates[0];
      var rest := candidates[1..];
      var next := Choice(if better(acc.placement, c) then c else acc.placement, acc.adopted || better(acc.placement, c));
      RanksStep(better, w, acc, candidates);
      FoldFirstStrict(better, w, next, rest);
      var r := FoldBest(better, next, rest);
      if r != next {
        var k :| 0 <= k < |rest| && r.placement == rest[k]
          && forall k' :: 0 <= k' < k ==> w(rest[k']) > w(r.placement);
        assert r.placement == candidates[k + 1];
        forall k' | 0 <= k' < k + 1
          ensures w(candidates[k']) > w(r.placement)
        {
          if k' > 0 {
            assert candidates[k'] == rest[k' - 1];
          }
        }
      } else if next != acc {
        assert r.placement == candidates[0];
      }
    }
  }

  /** The first-minimum property of the search's own fold. */
  lemma ReduceFirstMinimum(g: Geometry, w: Placement -> int, acc: Choice, candidates: seq<Placement>)
    requires RankedBy(g, w, [acc.placement] + candidates)
    ensures var r := Reduce(g, acc, candidates);
      w(r.placement) <= w(acc.placement)
      && (forall c :: c in candidates ==> w(r.placement) <= w(c))
      && (r == acc
          || (r.adopted && w(r.placement) < w(acc.placement)
              && exists k :: (0 <= k < |candidates| && r.placement == candidates[k]
                   && forall k' :: 0 <= k' < k ==> w(candidates[k']) > w(r.placement))))
  {
    ReduceIsFoldBest(g, acc, candidates);
    FoldFirstMinimum(ImprovesUnder(g), w, acc, candidates);
  }

  /** Under a ranking `w` of the unmoved arrangement and every considered
      candidate, the label's next arrangement is the first cheapest one:
      no dearer than staying put or than any candidate, and when the label
      moves, strictly cheaper than staying put and than every candidate
      considered before it. */
  lemma NextPlacementFirstMinimum(g: Geometry, w: Placement -> int, p: Placement, index: nat, diffs: seq<Diff>)
    requires index < |p.positions|
    requires RankedBy(g, w, [p] + Considered(g, p, index, diffs))
    ensures var r := NextPlacement(g, p, index, diffs);
      var candidates := Considered(g, p, index, diffs);
      w(r.placement) <= w(p)
      && (forall c :: c in candidates ==> w(r.placement) <= w(c))
      && (r.adopted ==>
            w(r.placement) < w(p)
            && exists k :: (0 <= k < |candidates| && r.placement == candidates[k]
                 && forall k' :: 0 <= k' < k ==> w(candidates[k']) > w(r.placement)))
  {
    ReduceFirstMinimum(g, w, Choice(p, false), Considered(g, p, index, diffs));
  }

  /** The outcome of one label's step is the unmoved arrangement, a
      first-tier move touching exactly `[index]`, or a cascade touching
      exactly `[index, j]` for a movable label `j` other than label 0. */
  lemma NextPlacementShape(g: Geometry, p: Placement, index: nat, diffs: seq<Diff>)
    requires index < |p.positions|
    ensures var r := NextPlacement(g, p, index, diffs);
      r == Choice(p, false)
      || (r.adopted && r.placement.indexes == [index] && SameExcept(p.positions, r.placement.positions, {index}))
      || (r.adopted && exists j :: Cascaded(p, r.placement, index, j))
  {
    ConsideredShape(g, p, index, diffs);
  }

  /** When no candidate is strictly cheaper than leaving the label where it
      is, the arrangement is kept (and counts as unchanged). */
  lemma TieStability(g: Geometry, p: Placement, index: nat, diffs: seq<Diff>)
    requires index < |p.positions|
    requires forall c :: c in Considered(g, p, index, diffs) ==> !Improves(g, p, c)
    ensures NextPlacement(g, p, index, diffs) == Choice(p, false)
  {
  }

  /** One sweep from label `index` on: every movable label in index order
      takes its next placement; fixed labels are skipped. */
  function SweepFrom(g: Geometry, acc: Choice, diffs: seq<Diff>, index: nat): (r: Choice)
    ensures KeepsFixed(acc.placement.positions, r.placement.positions)
    ensures !r.adopted ==> r == acc
    decreases |acc.placement.positions| - index
  {
    if index >= |acc.placement.positions| then acc
    else if acc.placement.positions[index].isFixed then SweepFrom(g, acc, diffs, index + 1)
    else
      var next := NextPlacement(g, acc.placement, index, diffs);
      SweepFrom(g, Choice(next.placement, acc.adopted || next.adopted), diffs, index + 1)
  }

  /** A full sweep over all labels at one factor's offsets. */
  function Sweep(g: Geometry, p: Placement, diffs: seq<Diff>): (r: Choice)
    ensures KeepsFixed(p.positions, r.placement.positions)
    ensures !r.adopted ==> r.placement == p
  {
    SweepFrom(g, Choice(p, false), diffs, 0)
  }

  /** Label `i` of `p` has no strictly cheaper candidate to move to. */
  ghost predicate Settled(g: Geometry, p: Placement, i: nat, diffs: seq<Diff>)
    requires i < |p.positions|
  {
    forall c :: c in Considered(g, p, i, diffs) ==> !Improves(g, p, c)
  }

  /** Once something is adopted, the rest of the sweep keeps it adopted. */
  lemma {:induction false} AdoptedStaysSet(g: Geometry, acc: Choice, diffs: seq<Diff>, index: nat)
    requires acc.adopted
    ensures SweepFrom(g, acc, diffs, index).adopted
    decreases |acc.placement.positions| - index
  {
    if index < |acc.placement.positions| {
      if acc.placement.positions[index].isFixed {
        AdoptedStaysSet(g, acc, diffs, index + 1);
      } else {
        var next := NextPlacement(g, acc.placement, index, diffs);
        AdoptedStaysSet(g, Choice(next.placement, true), diffs, index + 1);
      }
    }
  }

  /** A sweep from label `index` adopts nothing exactly when every movable
      label from `index` on is already settled in the starting arrangement. */
  lemma {:induction false} SweepFromIdle(g: Geometry, p: Placement, diffs: seq<Diff>, index: nat)
    ensures !SweepFrom(g, Choice(p, false), diffs, index).adopted <==>
      forall i :: index <= i < |p.positions| && !p.positions[i].isFixed ==> Settled(g, p, i, diffs)
    decreases |p.positions| - index
  {
    if index < |p.positions| {
      SweepFromIdle(g, p, diffs, index + 1);
      if !p.positions[index].isFixed {
        var next := NextPlacement(g, p, index, diffs);
        NextAdoptsUnlessSettled(g, p, index, diffs);
        if next.adopted {
          AdoptedStaysSet(g, Choice(next.placement, true), diffs, index + 1);
        }
      }
    }
  }

  /** After one label's step, every label is reached from where it was. */
  lemma NextReach(g: Geometry, p: Placement, index: nat, diffs: seq<Diff>)
    requires index < |p.positions|
    ensures AllReach(g, p.positions, NextPlacement(g, p, index, diffs).placement.positions)
  {
    if NextPlacement(g, p, index, diffs).adopted {
      ConsideredReach(g, p, index, diffs);
    } else {
      AllReachRefl(g, p.positions);
    }
  }

  /** After a sweep, every label is reached from where it started. */
  lemma {:induction false} SweepFromReach(g: Geometry, acc: Choice, diffs: seq<Diff>, index: nat)
    ensures AllReach(g, acc.placement.positions, SweepFrom(g, acc, diffs, index).placement.positions)
    decreases |acc.placement.positions| - index
  {
    if index >= |acc.placement.positions| {
      AllReachRefl(g, acc.placement.positions);
    } else if acc.placement.positions[index].isFixed {
      SweepFromReach(g, acc, diffs, index + 1);
    } else {
      var next := NextPlacement(g, acc.placement, index, diffs);
      var acc' := Choice(next.placement, acc.adopted || next.adopted);
      NextReach(g, acc.placement, index, diffs);
      SweepFromReach(g, acc', diffs, index + 1);
      AllReachTrans(g, acc.placement.positions, acc'.placement.positions,
        SweepFrom(g, acc', diffs, index + 1).placement.positions);
    }
  }

  /** One label's step adopts a move exactly when that label is not settled,
      and otherwise leaves the arrangement as it was. */
  lemma NextAdoptsUnlessSettled(g: Geometry, p: Placement, index: nat, diffs: seq<Diff>)
    requires index < |p.positions|
    ensures NextPlacement(g, p, index, diffs).adopted <==> !Settled(g, p, index, diffs)
    ensures !NextPlacement(g, p, index, diffs).adopted ==> NextPlacement(g, p, index, diffs) == Choice(p, false)
  {
  }

  /** A full sweep adopts nothing exactly when every movable label is
      already settled, which is when the factor's loop stops early. */
  lemma SweepIdle(g: Geometry, p: Placement, diffs: seq<Diff>)
    ensures !Sweep(g, p, diffs).adopted <==>
      forall i :: 0 <= i < |p.positions| && !p.positions[i].isFixed ==> Settled(g, p, i, diffs)
  {
    SweepFromIdle(g, p, diffs, 0);
  }

  /** A sweep over an arrangement whose labels are all fixed moves nothing. */
  lemma {:induction false} AllFixedSweepIsIdle(g: Geometry, acc: Choice, diffs: seq<Diff>, index: nat)
    requires forall i :: 0 <= i < |acc.placement.positions| ==> acc.placement.positions[i].isFixed
    ensures SweepFrom(g, acc, diffs, index) == acc
    decreases |acc.placement.positions| - index
  {
    if index < |acc.placement.positions| {
      AllFixedSweepIsIdle(g, acc, diffs, index + 1);
    }
  }

  /** `m` applications of `step` in a row, with no convergence test. */
  function Repeat(step: Placement -> Choice, p: Placement, m: nat): Placement
    decreases m
  {
    if m == 0 then p else Repeat(step, step(p).placement, m - 1)
  }

  /** Up to `remaining` applications of `step`, stopping after the first one
      that adopts nothing. */
  function Converge(step: Placement -> Choice, p: Placement, remaining: nat): Placement
    decreases remaining
  {
    if remaining == 0 then p
    else
      var s := step(p);
      if !s.adopted then s.placement else Converge(step, s.placement, remaining - 1)
  }

  /** The number of steps that adopt something before `Converge` stops. */
  function StepCount(step: Placement -> Choice, p: Placement, remaining: nat): nat
    decreases remaining
  {
    if remaining == 0 || !step(p).adopted then 0
    else 1 + StepCount(step, step(p).placement, remaining - 1)
  }

  /** For a step that returns its input whenever it adopts nothing, the loop
      stops after `StepCount` steps, within its budget, and early only when
      the next step adopts nothing. */
  lemma {:induction false} ConvergeCount(step: Placement -> Choice, p: Placement, remaining: nat)
    requires forall q: Placement :: !step(q).adopted ==> step(q).placement == q
    ensures var m := StepCount(step, p, remaining);
      m <= remaining
      && Converge(step, p, remaining) == Repeat(step, p, m)
      && (m < remaining ==> !step(Repeat(step, p, m)).adopted)
    decreases remaining
  {
    if remaining > 0 && step(p).adopted {
      var q := step(p).placement;
      ConvergeCount(step, q, remaining - 1);
      assert StepCount(step, p, remaining) == StepCount(step, q, remaining - 1) + 1;
      assert Converge(step, p, remaining) == Converge(step, q, remaining - 1);
    }
  }

  /** A step that keeps fixed labels keeps them however often it is repeated. */
  lemma {:induction false} ConvergeKeepsFixed(step: Placement -> Choice, p: Placement, remaining: nat)
    requires forall q: Placement :: KeepsFixed(q.positions, step(q).placement.positions)
    ensures KeepsFixed(p.positions, Converge(step, p, remaining).positions)
    decreases remaining
  {
    if remaining > 0 && step(p).adopted {
      var q := step(p).placement;
      ConvergeKeepsFixed(step, q, remaining - 1);
      assert KeepsFixed(p.positions, q.positions);
    } else if remaining > 0 {
      assert KeepsFixed(p.positions, step(p).placement.positions);
    }
  }

  /** A step after which every label is reached from where it was keeps
      that property over any number of repetitions. */
  lemma {:induction false} ConvergeReach(g: Geometry, step: Placement -> Choice, p: Placement, remaining: nat)
    requires forall q: Placement :: AllReach(g, q.positions, step(q).placement.positions)
    ensures AllReach(g, p.positions, Converge(step, p, remaining).positions)
    decreases remaining
  {
    if remaining == 0 || !step(p).adopted {
      AllReachRefl(g, p.positions);
    } else {
      var q := step(p).placement;
      ConvergeReach(g, step, q, remaining - 1);
      AllReachTrans(g, p.positions, q.positions, Converge(step, q, remaining - 1).positions);
    }
  }

  /** One sweep at the offsets `diffs`, as a step function. */
  function SweepStep(g: Geometry, diffs: seq<Diff>): Placement -> Choice {
    q => Sweep(g, q, diffs)
  }

  /** Up to `remaining` sweeps at one factor, stopping after the first sweep
      that adopts nothing. */
  function RunSweeps(g: Geometry, p: Placement, diffs: seq<Diff>, remaining: nat): (r: Placement)
    ensures KeepsFixed(p.positions, r.positions)
    ensures AllReach(g, p.positions, r.positions)
    ensures !Sweep(g, p, diffs).adopted ==> r == p
  {
    ConvergeKeepsFixed(SweepStep(g, diffs), p, remaining);
    forall q: Placement
      ensures AllReach(g, q.positions, SweepStep(g, diffs)(q).placement.positions)
    {
      SweepFromReach(g, Choice(q, false), diffs, 0);
    }
    ConvergeReach(g, SweepStep(g, diffs), p, remaining);
    Converge(SweepStep(g, diffs), p, remaining)
  }

  /** `m` sweeps in a row, with no convergence test. */
  function Iterate(g: Geometry, p: Placement, diffs: seq<Diff>, m: nat): Placement {
    Repeat(SweepStep(g, diffs), p, m)
  }

  /** A factor's result is the arrangement after some number m of sweeps,
      m at most the sweep budget, and fewer only when the sweep after the
      m-th adopts nothing. */
  lemma RunSweepsBounded(g: Geometry, p: Placement, diffs: seq<Diff>, remaining: nat)
    ensures exists m :: (0 <= m <= remaining
      && RunSweeps(g, p, diffs, remaining) == Iterate(g, p, diffs, m)
      && (m < remaining ==> !Sweep(g, Iterate(g, p, diffs, m), diffs).adopted))
  {
    forall q: Placement
      ensures !SweepStep(g, diffs)(q).adopted ==> SweepStep(g, diffs)(q).placement == q
    {
      assert SweepStep(g, diffs)(q) == Sweep(g, q, diffs);
    }
    ConvergeCount(SweepStep(g, diffs), p, remaining);
    var m := StepCount(SweepStep(g, diffs), p, remaining);
    assert SweepStep(g, diffs)(Iterate(g, p, diffs, m)) == Sweep(g, Iterate(g, p, diffs, m), diffs);
  }

  /** One step of a factor's sweeps: converged, or on to the next sweep. */
  lemma RunSweepsStep(g: Geometry, p: Placement, diffs: seq<Diff>, remaining: nat)
    requires remaining > 0
    ensures var s := Sweep(g, p, diffs);
      RunSweeps(g, p, diffs, remaining) == if s.adopted then RunSweeps(g, s.placement, diffs, remaining - 1) else p
  {
    assert SweepStep(g, diffs)(p) == Sweep(g, p, diffs);
  }

  /** The factors from `f` on, coarse to fine. */
  function SearchFrom(g: Geometry, p: Placement, f: nat): (r: Placement)
    ensures KeepsFixed(p.positions, r.positions)
    ensures AllReach(g, p.positions, r.positions)
    decreases |Factors| - f
  {
    if f >= |Factors| then AllReachRefl(g, p.positions); p
    else
      var q := RunSweeps(g, p, DiffsArray()[f], IterationsPerFactor);
      AllReachTrans(g, p.positions, q.positions, SearchFrom(g, q, f + 1).positions);
      SearchFrom(g, q, f + 1)
  }

  /** An arrangement in which every movable label is already settled at
      every remaining factor is returned unchanged. */
  lemma {:induction false} SearchFromSettled(g: Geometry, p: Placement, f: nat)
    requires forall f', i :: f <= f' < |Factors| && 0 <= i < |p.positions| && !p.positions[i].isFixed ==>
      Settled(g, p, i, DiffsArray()[f'])
    ensures SearchFrom(g, p, f) == p
    decreases |Factors| - f
  {
    if f < |Factors| {
      SweepIdle(g, p, DiffsArray()[f]);
      SearchFromSettled(g, p, f + 1);
    }
  }

  /** findMostSuitablePosition: the positions after every factor's sweeps;
      same length and order as the input, fixed labels untouched. */
  function FindMostSuitablePosition(g: Geometry, p: Placement): (r: seq<Position>)
    ensures |r| == |p.positions|
    ensures forall i :: 0 <= i < |r| && p.positions[i].isFixed ==> r[i] == p.positions[i]
    ensures forall i :: 0 <= i < |r| ==> Reaches(g, p.positions[i], r[i])
  {
    SearchFrom(g, p, 0).positions
  }

  /** The innermost loop of findMostSuitablePosition: one sweep over the
      labels in index order, skipping fixed ones. */
  method SweepLoop(g: Geometry, previous: Placement, diffs: seq<Diff>) returns (placement: Placement, adopted: bool)
    ensures Choice(placement, adopted) == Sweep(g, previous, diffs)
  {
    placement := previous;
    adopted := false;
    var index := 0;
    while index < |placement.positions|
      invariant 0 <= index <= |placement.positions| == |previous.positions|
      invariant SweepFrom(g, Choice(placement, adopted), diffs, index) == Sweep(g, previous, diffs)
      decreases |placement.positions| - index
    {
      if !placement.positions[index].isFixed {
        var next := NextPlacement(g, placement, index, diffs);
        placement := next.placement;
        adopted := adopted || next.adopted;
      }
      index := index + 1;
    }
  }

  /** The middle loop: up to `IterationsPerFactor` sweeps, leaving early
      after a sweep that adopts nothing. */
  method FactorLoop(g: Geometry, atFactor: Placement, diffs: seq<Diff>) returns (placement: Placement)
    ensures placement == RunSweeps(g, atFactor, diffs, IterationsPerFactor)
  {
    placement := atFactor;
    var iteration := 0;
    while iteration < IterationsPerFactor
      invariant 0 <= iteration <= IterationsPerFactor
      invariant RunSweeps(g, placement, diffs, IterationsPerFactor - iteration)
        == RunSweeps(g, atFactor, diffs, IterationsPerFactor)
    {
      var previous := placement;
      var adopted;
      RunSweepsStep(g, previous, diffs, IterationsPerFactor - iteration);
      placement, adopted := SweepLoop(g, previous, diffs);
      if !adopted {
        break;
      }
      iteration := iteration + 1;
    }
  }

  /** The outer loop of findMostSuitablePosition: every factor in turn. It
      computes the recursive definition above. */
  method SearchLoops(g: Geometry, initial: Placement) returns (positions: seq<Position>)
    ensures positions == FindMostSuitablePosition(g, initial)
    ensures |positions| == |initial.positions|
  {
    var placement := initial;
    var factor := 0;
    while factor < |Factors|
      invariant 0 <= factor <= |Factors|
      invariant SearchFrom(g, placement, factor) == SearchFrom(g, initial, 0)
    {
      placement := FactorLoop(g, placement, DiffsArray()[factor]);
      factor := factor + 1;
    }
    positions := placement.positions;
  }

  /** optimizePositions: normalize every label, search, then stamp each
      final position with its visibility. */
  function OptimizePositions(g: Geometry, initial: seq<Position>): (r: seq<Placed>)
    ensures |r| == |initial|
    ensures forall i :: 0 <= i < |r| ==> r[i].visible == g.shouldBeVisible(r[i].position)
    ensures forall i :: 0 <= i < |r| && g.normalize(initial[i]).isFixed ==> r[i].position == g.normalize(initial[i])
    ensures forall i :: 0 <= i < |r| ==> Reaches(g, g.normalize(initial[i]), r[i].position)
  {
    Stamp(g, FindMostSuitablePosition(g, Placement(Normalized(g, initial), [])))
  }

  /** Every label normalized by the geometry, in order. */
  function Normalized(g: Geometry, initial: seq<Position>): (r: seq<Position>)
    ensures |r| == |initial| && forall i :: 0 <= i < |r| ==> r[i] == g.normalize(initial[i])
  {
    seq(|initial|, i requires 0 <= i < |initial| => g.normalize(initial[i]))
  }

  /** Every final position paired with its visibility, in order. */
  function Stamp(g: Geometry, positions: seq<Position>): (r: seq<Placed>)
    ensures |r| == |positions|
    ensures forall i :: 0 <= i < |r| ==> r[i] == Placed(positions[i], g.shouldBeVisible(positions[i]))
  {
    seq(|positions|, i requires 0 <= i < |positions| => Placed(positions[i], g.shouldBeVisible(positions[i])))
  }
}
